=== FILE: README.md ===
# Combined-request dispatcher, modelled in Dafny

The model covers `spring-boot-combine-request`'s combined-request endpoint. A client
POSTs a list of request items. Each item has a url, an HTTP method, a request id, a
parameter map and a header map. `CombineRequestController.combine` does four things:

1. It resolves every item to a handler method. It looks in a process-wide route cache keyed
   by `url + METHOD`, or else scans the route table.
2. It rejects the whole call when the batch flag has ended false. The flag starts true. On a
   cache miss, a route entry that does not serve the item clears it, and so does a serving
   entry whose handler lacks `@EnableCombineRequest`. A cache hit leaves it alone.
3. It binds each item's parameter map to its handler's arguments (`getArgs`).
4. It invokes each handler and answers with one response item per request item: 200 with the
   returned value, 400 "bad request" when invocation throws `IllegalArgumentException`, or
   404 when no handler was recorded.

`RequestItem.equals`/`hashCode` make items usable as keys of the per-call handler map.

The model is functional. The route cache is threaded explicitly: it is passed in and the
grown cache is returned. The route table is a sequence of entries, and URL-pattern matching
is a parameter `matches(pattern, url)`. Reflective invocation is also a parameter. It returns
a value, throws `IllegalArgumentException`, or throws something else.

Modules:

- `JavaLang`: nullable references, JSON values, `String.toUpperCase`, `toString`, and the
  32-bit hash arithmetic.
- `RequestItems`: the request and response records, `equals` and `hashCode`.
- `Binding`: handler metadata, `parseDefaultValueAttribute` and `getArgs`.
- `Routing`: `RequestMethod`, the cache key and its inverse, the route table and the scan on a
  cache miss.
- `Dispatch`: the resolution pass, the all-or-nothing gate, the response loop, `combine`, and
  the theorems about them.
- `Fixtures`: concrete scenarios built from the demo `UserController` handlers.

## Behaviour as written

The model follows the code. These consequences of the code are easy to miss:

- **One entry decides for all.** On a cache miss the scan visits every route-table entry. An
  entry that does not serve the item's url and method clears the batch flag. So on a cache
  miss the call is accepted only when every entry serves the item (`AllServe`,
  `ResolutionGate`). A table with two urls that no pattern matches together rejects any
  cache miss (`EarlierEntryRejects`).
- **Caching before the gate.** A matching entry is written to the cache even when its handler
  lacks `@EnableCombineRequest`, and even when the call is then rejected
  (`LaterEntryRejectsAfterCaching`).
- **A cache hit skips the annotation check.** So the second identical call runs a handler that
  is not enabled (`UnannotatedHandlerRunsOnSecondCall`, `CacheHitReusesHandler`). When the
  flag clears part-way through a scan, the cache keeps the handler of the entry that cleared
  it if that entry serves the item, otherwise that of the last entry passed (`ScanLeavesHandler`).
- **Binding failures escape.** `getArgs` is called outside the `try`. A required parameter
  with neither a value nor a default therefore aborts the whole call instead of answering 400
  (`MissingRequiredAbortsCall`, `BindFailureRejectsCall`). The same holds for a null
  parameter map when the handler's parameter names are known and it has at least one
  parameter. When the names are unknown, `getArgs` returns null before it reads the map, and
  the handler is invoked with null arguments.
- **Exceptions escape too.** A null url or method, or a method name that is not a
  `RequestMethod`, throws out of `combine`. So does any handler exception other than
  `IllegalArgumentException`.
- **No path variables.** `@PathVariable` is recognised but not used. The parameter is then
  looked up by its literal name in the parameter map, and the url is never parsed
  (`QiuIdIsNotExtracted`).
- **404 needs an empty table.** In an accepted call an item is answered 404 exactly when the
  route table is empty and its key was not cached (`NotFoundIff`).

## Model

Source paths are relative to the repository root.

| member | source | states |
|---|---|---|
| JavaLang.ToUpperCase | src/main/java/io/github/controller/CombineRequestController.java:70 | the upper-cased method string is at least as long as the input and contains no lower-case ASCII letter |
| JavaLang.ToUpperCaseAppend | src/main/java/io/github/controller/CombineRequestController.java:70 | upper-casing works character by character: the upper case of a concatenation is the concatenation of the upper cases |
| JavaLang.ToUpperCaseOfFixed | src/main/java/io/github/controller/CombineRequestController.java:70 | a string of characters that upper-casing leaves alone (such as "GET") is returned unchanged |
| JavaLang.ToUpperCaseIdempotent | src/main/java/io/github/controller/CombineRequestController.java:70 | upper-casing an upper-cased method changes nothing, so the key does not depend on how often it was normalised |
| JavaLang.UpperCharOutputFixed | src/main/java/io/github/controller/CombineRequestController.java:70 | every character produced by upper-casing one character is itself left alone by upper-casing |
| JavaLang.ToString | src/main/java/io/github/controller/CombineRequestController.java:192 | a supplied string parameter is passed as itself, and a non-negative number as its decimal numeral |
| JavaLang.NatToStringRoundTrip | src/main/java/io/github/controller/CombineRequestController.java:192 | the decimal numeral of a natural number reads back as that number |
| JavaLang.IntToStringRoundTrip | src/main/java/io/github/controller/CombineRequestController.java:192 | `toString` of any integer parameter, negative included, parses back to the same integer |
| JavaLang.Int32 | src/main/java/io/github/pojo/RequestItem.java:59-61 | the hash arithmetic wraps into the 32-bit signed range and stays congruent to the exact value modulo 2^32 |
| RequestItems.Equals | src/main/java/io/github/pojo/RequestItem.java:43-56 | `equals` as written: identity first, then null and class, then url, method, request id, parameter map and header map compared pairwise; its meaning is stated by the four lemmas below |
| RequestItems.HashCode | src/main/java/io/github/pojo/RequestItem.java:58-61 | `Objects.hash` over the same five fields, each null hashing to 0; it is related to `equals` by `EqualItemsHashEqually` |
| RequestItems.EqualsReflexive | src/main/java/io/github/pojo/RequestItem.java:44-46 | an item equals itself, through the identity check |
| RequestItems.EqualsRejectsNullAndOtherClasses | src/main/java/io/github/pojo/RequestItem.java:47-49 | an item never equals null or an object of another class |
| RequestItems.EqualsIffSameFields | src/main/java/io/github/pojo/RequestItem.java:50-55 | two items are equal exactly when url, method, request id, parameter map and header map are pairwise equal |
| RequestItems.EqualsSymmetric | src/main/java/io/github/pojo/RequestItem.java:43-56 | equality of items is symmetric |
| RequestItems.EqualItemsHashEqually | src/main/java/io/github/pojo/RequestItem.java:58-61 | equal items have equal `Objects.hash` codes, so the per-call hash map treats equal items as one key |
| Binding.ParseDefaultValue | src/main/java/io/github/controller/CombineRequestController.java:150-152 | there is no default exactly when the attribute is the `DEFAULT_NONE` marker; otherwise the default is the attribute itself |
| Binding.Lookup | src/main/java/io/github/controller/CombineRequestController.java:187 | a parameter is found exactly when its key is present with a non-null value, and then it is that value |
| Binding.IsRequestParam | src/main/java/io/github/controller/CombineRequestController.java:177-182 | a parameter is treated as `@RequestParam` only when its first annotation is one; later annotations are never looked at |
| Binding.MissingRequired | src/main/java/io/github/controller/CombineRequestController.java:187-190 | the assertion fails for a required `@RequestParam` whose map value is absent or null and that has no default |
| Binding.RequestParamArg | src/main/java/io/github/controller/CombineRequestController.java:186-193 | a `@RequestParam` argument is null exactly when there is neither a value nor a default; a supplied value wins over the default and is passed as its string form |
| Binding.BindParam | src/main/java/io/github/controller/CombineRequestController.java:171-211 | one parameter throws on a null map or on a required parameter with neither value nor default, and on no other input; otherwise it adds at most one argument: the `@RequestParam` value, or a value found under the literal name |
| Binding.BindAll | src/main/java/io/github/controller/CombineRequestController.java:169-214 | the parameters' contributions in declaration order, or the first failure; a null map fails on any non-empty list, and there are never more arguments than parameters |
| Binding.BindSignature | src/main/java/io/github/controller/CombineRequestController.java:159-215 | the array is null exactly when parameter names are unknown; otherwise it holds at most one argument per parameter, or the binder's exception, which a null map raises for a handler whose parameter names are known and that has at least one parameter |
| Binding.GetArgs | src/main/java/io/github/controller/CombineRequestController.java:159-215 | the loop computes the binder's reference definition, the first failure stopping it; the array is null exactly when parameter names are unknown |
| Binding.BindFailureIsFinal | src/main/java/io/github/controller/CombineRequestController.java:189-191 | once a parameter throws, no later parameter changes the outcome |
| Binding.BindFailsIff | src/main/java/io/github/controller/CombineRequestController.java:187-191 | binding fails exactly when the map is null and there is a parameter, or some required `@RequestParam` has neither value nor default |
| Binding.BindLength | src/main/java/io/github/controller/CombineRequestController.java:205-211 | the argument array has one element per parameter except those without annotation whose literal name is absent, so it can be shorter than the signature |
| Binding.BindPositional | src/main/java/io/github/controller/CombineRequestController.java:169-214 | when no parameter is skipped, the i-th argument is the i-th parameter's contribution, in declaration order |
| Routing.ValueOf | src/main/java/io/github/controller/CombineRequestController.java:71 | `RequestMethod.valueOf` succeeds exactly on the eight constant names and returns the constant of that name |
| Routing.NormalizeUrl | src/main/java/io/github/controller/CombineRequestController.java:69 | the normalised url starts with `/`, ends with the original url, and is one character longer exactly when a slash was added |
| Routing.NormalizeUrlIdempotent | src/main/java/io/github/controller/CombineRequestController.java:69 | normalising a normalised url changes nothing |
| Routing.RouteKeyCanonical | src/main/java/io/github/controller/CombineRequestController.java:69-72 | normalising url and method first does not change the cache key |
| Routing.RouteKey | src/main/java/io/github/controller/CombineRequestController.java:69-72 | a key starts with `/`, the slash that normalisation guarantees |
| Routing.RouteKeySplits | src/main/java/io/github/controller/CombineRequestController.java:69-72 | when the upper-cased method names a `RequestMethod`, the key splits back into the normalised url and that method |
| Routing.UpperCaseGet | src/main/java/io/github/controller/CombineRequestController.java:70 | "get" and "GET" both upper-case to "GET" |
| Routing.RouteKeyExample | src/main/java/io/github/controller/CombineRequestController.java:69-72 | (`a`, `get`) and (`/a`, `GET`) share the cache key `/aGET` |
| Routing.SplitKeyFrom | src/main/java/io/github/controller/CombineRequestController.java:72 | a split key reassembles to the key, with a method among the candidates; no split means no candidate's name ends the key |
| Routing.SplitKey | src/main/java/io/github/controller/CombineRequestController.java:72 | a split key is the url followed by the method name it was split into |
| Routing.NamesNotSuffixes | src/main/java/io/github/controller/CombineRequestController.java:71 | no `RequestMethod` name ends another, which is what makes keys unambiguous |
| Routing.OnlyMethodEndsKey | src/main/java/io/github/controller/CombineRequestController.java:71-72 | in `url + METHOD`, no other `RequestMethod` name ends the key |
| Routing.SplitKeyFromFinds | src/main/java/io/github/controller/CombineRequestController.java:72 | when exactly one candidate name ends the key, the split returns that method and the url before it |
| Routing.SplitKeyRoundTrip | src/main/java/io/github/controller/CombineRequestController.java:72 | splitting `url + METHOD` recovers exactly that url and method |
| Routing.KeyInjective | src/main/java/io/github/controller/CombineRequestController.java:50-52 | distinct (url, method) pairs never share a cache key |
| Routing.Serves | src/main/java/io/github/controller/CombineRequestController.java:87-90 | an entry serves a url and method when one of its patterns matches the url and the method is among its methods |
| Routing.Scan | src/main/java/io/github/controller/CombineRequestController.java:82-103 | a false flag skips the scan; the flag survives exactly when every entry serves the url and method and is enabled; the key is cached exactly when the first entry serves it or it was cached before; only the item and its key are written; a surviving flag records the last entry's handler |
| Routing.ScanCachesServingHandler | src/main/java/io/github/controller/CombineRequestController.java:92-98 | after the scan the key maps to the handler it had before or to the handler of an entry that serves the url and method |
| Routing.FirstStopIsFirst | src/main/java/io/github/controller/CombineRequestController.java:82-103 | the first entry the scan does not pass is preceded only by entries that serve and are enabled, and the table has none exactly when every entry serves and is enabled |
| Routing.ScanLeavesHandler | src/main/java/io/github/controller/CombineRequestController.java:82-103 | from a true flag the scan writes, under the key and for the item, the handler of the entry where the flag cleared if that entry serves, otherwise that of the last entry passed, and nothing when the first entry does not serve; entries after the clearing one are skipped |
| Dispatch.ItemKey | src/main/java/io/github/controller/CombineRequestController.java:69-72 | an item's key is its normalised url followed by the name of the parsed method |
| Dispatch.FailureOf | src/main/java/io/github/controller/CombineRequestController.java:69-71 | the pass reports a null-pointer exception exactly when url or method is null; for any other ill-formed item it reports the item's method upper-cased, a name `valueOf` rejects |
| Dispatch.ResolveItem | src/main/java/io/github/controller/CombineRequestController.java:68-104 | an item stops the pass exactly when url or method is null or the method is unknown, with the cache unchanged; a hit records the cached handler unless the flag is false; a miss runs the scan; the cache only grows |
| Dispatch.Resolve | src/main/java/io/github/controller/CombineRequestController.java:68-105 | the pass throws exactly when some item is ill-formed, with a null-pointer or unknown-method exception; the cache only grows; the flag never returns to true |
| Dispatch.FirstIllFormedIsFirst | src/main/java/io/github/controller/CombineRequestController.java:67-72 | the first ill-formed position has only well-formed items before it, and exists exactly when some item is ill-formed |
| Dispatch.ResolveStopsAtFirst | src/main/java/io/github/controller/CombineRequestController.java:67-72 | a pass that throws reports the exception of the first ill-formed item in input order |
| Dispatch.ResolveInvalidStays | src/main/java/io/github/controller/CombineRequestController.java:75-77 | once the flag is false it stays false for the rest of the pass |
| Dispatch.ResolveItemGate | src/main/java/io/github/controller/CombineRequestController.java:74-103 | from a valid state, an item keeps the flag exactly when its key was cached before the call or every entry serves and enables it |
| Dispatch.ResolveGateFrom | src/main/java/io/github/controller/CombineRequestController.java:67-105 | from any state that keeps the pass's invariants, the flag ends true exactly when it started true and every item is admissible |
| Dispatch.ResolutionGate | src/main/java/io/github/controller/CombineRequestController.java:67-109 | the pass finishes with the flag true exactly when every item is well-formed and either hits the cache or is served and enabled by every entry |
| Dispatch.AnswerItem | src/main/java/io/github/controller/CombineRequestController.java:116-143 | a response copies id and url; it is 404 with no entity exactly when no handler was recorded; a binding failure escapes before any invocation instead of answering; otherwise the handler is invoked once, a returned value gives 200 with that value, `IllegalArgumentException` gives 400 "bad request", and any other exception escapes; each direction is stated |
| Dispatch.HandlerFor | src/main/java/io/github/controller/CombineRequestController.java:120 | the per-call map's `get`: a handler exactly when the item was recorded, and then the recorded one |
| Dispatch.Respond | src/main/java/io/github/controller/CombineRequestController.java:115-145 | the response list is produced exactly when every item is answered, one response per item in input order; otherwise a binding or handler exception escapes; only recorded handlers are invoked |
| Dispatch.FirstRaiseIsFirst | src/main/java/io/github/controller/CombineRequestController.java:115-145 | the first raising position has only answered items before it and points at an item whose answer raises |
| Dispatch.RespondRejectedAtFirstRaise | src/main/java/io/github/controller/CombineRequestController.java:115-145 | a rejected response loop reports the exception of the first item whose answer raises |
| Dispatch.CombineRaisesAtFirst | src/main/java/io/github/controller/CombineRequestController.java:115-145 | a call that passes the gate and whose first item raises is rejected with that item's exception, having invoked only what that item invoked |
| Dispatch.Combine | src/main/java/io/github/controller/CombineRequestController.java:60-147 | the cache only grows; an accepted call answers every item with its id and url and a status in {200, 400, 404}; an ill-formed item aborts the call before any handler runs, with an exception other than "not supported"; `CombineFailsAtFirstIllFormed` names which one |
| Dispatch.CombineGate | src/main/java/io/github/controller/CombineRequestController.java:107-109 | a call that fails the gate is rejected before any handler runs, as "not supported" when all items are well-formed; a call that passes is rejected only by a binding or handler exception |
| Dispatch.CombineFailsAtFirstIllFormed | src/main/java/io/github/controller/CombineRequestController.java:67-72 | a batch with an ill-formed item is rejected with exactly the exception of the first such item in input order, a null-pointer exception or `valueOf`'s rejection of the upper-cased method, and no handler runs |
| Dispatch.ResolveItemKeepsCacheSound | src/main/java/io/github/controller/CombineRequestController.java:92-98 | one item keeps every cache entry traceable to a route entry serving the url and method its key spells |
| Dispatch.ResolveKeepsCacheSound | src/main/java/io/github/controller/CombineRequestController.java:92-98 | the whole pass keeps the cache traceable to the table, even when it throws |
| Dispatch.CombineKeepsCacheSound | src/main/java/io/github/controller/CombineRequestController.java:92-98 | the cache only ever holds handlers of entries serving the cached url and method, whether the call is accepted or rejected, annotated or not |
| Dispatch.ResolveItemKeepsResolvedFromCache | src/main/java/io/github/controller/CombineRequestController.java:79 | after an item, every item in the per-call map is mapped to the cached handler of its key |
| Dispatch.ResolveItemMembership | src/main/java/io/github/controller/CombineRequestController.java:74-103 | one item that keeps the flag enters the per-call map when the table is non-empty or its key was cached, and the map stays consistent with the cache |
| Dispatch.ResolveMembership | src/main/java/io/github/controller/CombineRequestController.java:74-103 | on a pass that keeps the flag, the per-call map agrees with the cache; every item is in it when the table is non-empty, and so is every item whose key was cached; an empty table leaves the cache alone |
| Dispatch.CombineAccepted | src/main/java/io/github/controller/CombineRequestController.java:107-146 | an accepted call comes from a pass that kept the flag, returns that pass's cache, and answers each item as the response loop does on the per-call map |
| Dispatch.NotFoundIff | src/main/java/io/github/controller/CombineRequestController.java:120-123 | in an accepted call an item is answered 404 exactly when the route table is empty and its key was not cached |
| Dispatch.CacheHitReusesHandler | src/main/java/io/github/controller/CombineRequestController.java:74-79 | in an accepted call an item whose key was cached is answered by the cached handler, whatever its annotation |
| Dispatch.BindFailureRejectsCall | src/main/java/io/github/controller/CombineRequestController.java:129-135 | when every item passes the gate and the handler recorded for some item cannot bind its parameters, the call is rejected, by a binding or handler exception, and never answered |
| Dispatch.CachedBindFailureRejectsCall | src/main/java/io/github/controller/CombineRequestController.java:74-135 | an item whose key is cached with a handler that cannot bind its parameters makes every call containing it fail, whatever the table holds |
| Dispatch.ResolveFromCacheOnly | src/main/java/io/github/controller/CombineRequestController.java:74-79 | a pass whose items all hit the cache does not depend on the route table |
| Dispatch.KeysCachedAfterGate | src/main/java/io/github/controller/CombineRequestController.java:92-98 | after a call that passes the gate on a non-empty table every item's key is in the returned cache |
| Dispatch.RepeatIsServedFromCache | src/main/java/io/github/controller/CombineRequestController.java:92-98 | after a call that passes the gate on a non-empty table every key is cached, so repeating the call gives a result independent of the table |
| Fixtures.QiuIdIsNotExtracted | src/main/java/io/github/controller/UserController.java:43 | `getQiu` with an empty map gets only the defaulted name "丘": the `@PathVariable` id is not taken from the url |
| Fixtures.QiuIdFromParameters | src/main/java/io/github/controller/UserController.java:43 | `getQiu` with `id` in the map gets the raw id, then the defaulted name |
| Fixtures.QiuUserNameAsString | src/main/java/io/github/controller/UserController.java:43 | a numeric `userName` reaches `getQiu` as its string form "5" |
| Fixtures.LiangDeclarationOrder | src/main/java/io/github/controller/UserController.java:36 | `getLiang` gets the defaulted name "明", then the raw id, in declaration order |
| Fixtures.RequiredWithoutDefault | src/main/java/io/github/controller/CombineRequestController.java:189-195 | a required parameter without value or default throws; an optional one contributes null |
| Fixtures.NullCases | src/main/java/io/github/controller/CombineRequestController.java:163-166 | unknown parameter names give a null array; a null map throws at the first parameter but not for a parameterless handler |
| Fixtures.EarlierEntryRejects | src/main/java/io/github/controller/CombineRequestController.java:99-101 | with `/ming` listed before `/fang`, a call for `/fang` is rejected as not supported and nothing is cached |
| Fixtures.LaterEntryRejectsAfterCaching | src/main/java/io/github/controller/CombineRequestController.java:97-101 | with `/fang` listed first, the same call caches `/fangGET` and is still rejected |
| Fixtures.UnannotatedHandlerRunsOnSecondCall | src/main/java/io/github/controller/CombineRequestController.java:74-98 | a handler without `@EnableCombineRequest` is cached by a rejected first call and invoked with status 200 by the identical second call |
| Fixtures.MissingRequiredAbortsCall | src/main/java/io/github/controller/CombineRequestController.java:130 | a missing required parameter in the first item aborts the whole call with the binder's exception; no handler runs, and the well-formed second item gets no answer |
| Fixtures.IllegalArgumentIsBadRequest | src/main/java/io/github/controller/CombineRequestController.java:138-141 | a handler throwing `IllegalArgumentException` gives 400 "bad request", keeping the url as sent |
| Fixtures.UnknownMethodAborts | src/main/java/io/github/controller/CombineRequestController.java:71 | the method "GOT" aborts the call with `valueOf`'s exception |

## Left out

- Spring reflection is not modelled. This covers the parameter-name discoverer, annotation
  lookup, `getBean` and `ReflectionUtils.invokeMethod`. A handler is a record of its
  parameters and its `@EnableCombineRequest` flag, and invocation is a parameter of the model.
- URL-pattern matching (`getMatchingPatterns`) is a parameter `matches(pattern, url)`. Ant-style
  patterns and path-variable templates are not modelled.
- `requestMappingHandlerMapping.getHandlerMethods()` is a sequence in the map's iteration
  order. The order of a real `LinkedHashMap` is not modelled.
- Concurrency is not modelled. The `parallelStream` response loop is a sequential loop in input
  order. The `ThreadLocal` flag and the `ConcurrentHashMap` cache are values threaded through
  one call, and races between concurrent calls are not modelled.
- Dispatch.Respond: when a handler exception escapes, the model stops at the first failing item
  in input order. Under `parallelStream` other items may already have run, so `invoked` lists
  only the handlers that ran before that item.
- Dispatch.Combine: the `ArrayList` that the parallel stream appends to is modelled as an
  ordered list. Order scrambling and lost appends under concurrent `add` are not modelled.
- Logging, JSON (de)serialisation, `ResponseEntity` and HTTP transport are not modelled. The
  response list is the call's value.
- The header map is carried and compared, but nothing reads it, as in the source.
- A null element in the request list is not modelled. A model item is never null. In the
  source, a `null` element throws `NullPointerException` at line 69 of
  `CombineRequestController.java`. That is the same escape a null url takes (`NullField`).
- JavaLang.ToUpperCase: covers ASCII and the non-ASCII characters whose upper case consists
  only of ASCII letters (ı, ſ, ß, and the ligatures U+FB00 to U+FB06), in a default locale
  other than Turkish, Azerbaijani or Lithuanian. Other characters are kept as they are. This
  includes characters whose upper case mixes ASCII letters with other characters, such as
  U+0149, U+01F0 and U+1E96 to U+1E9A. Such an upper case always holds a non-ASCII character,
  so `valueOf` rejects it either way. In those locales the model is exact for deciding which
  strings name a `RequestMethod`, but not in general. The locale-specific rules are not
  modelled. In Turkish and Azerbaijani, `i` becomes `İ`. In Lithuanian, U+0307 (combining dot
  above) is dropped after a soft-dotted letter. So there "opti\u0307ons" upper-cases to
  "OPTIONS", which `valueOf` accepts, while the model keeps U+0307 and reports an unknown
  method.
- JSON values are null, booleans, integers and strings. Nested objects, arrays and non-integer
  numbers are not modelled, and nor is their `toString` or `hashCode`. An integer is hashed as
  an `Integer`; `Long` or `BigDecimal` boxing is not modelled.
- RequestItems.HashCode is a ghost function, because `AbstractMap.hashCode` sums over entries in
  an unspecified order. It is related to `equals` by `EqualItemsHashEqually`, not computed.
- Other repository files are not part of this model: `SwaggerConfig`, the application bootstrap,
  `UserDto` and `ResponseItem` beyond its four fields. `EnableCombineRequest` appears only as a
  handler flag.

=== FILE: binding.dfy ===
/** Handler metadata and the parameter binder `getArgs`: how a request item's
    parameter map becomes the argument array passed to a handler method. */
module Binding {
  import opened JavaLang

  /** `ValueConstants.DEFAULT_NONE`, the annotation attribute value that means
      "no default value". */
  const DEFAULT_NONE: string := "\n\t\t\n\t\t\n\U{E000}\U{E001}\U{E002}\n\t\t\t\t\n"

  /** `parseDefaultValueAttribute`: the marker means no default; anything else
      is the default itself. */
  function ParseDefaultValue(value: string): (r: Option<string>)
    ensures r.None? <==> value == DEFAULT_NONE
    ensures r.Some? ==> r.value == value
  {
    if value == DEFAULT_NONE then None else Some(value)
  }

  /** The attributes of a parameter annotation the binder looks at; `Other`
      stands for any annotation that is neither `@RequestParam` nor
      `@PathVariable`. */
  datatype Annotation =
    | RequestParam(name: string, required: bool, defaultValue: string)
    | PathVariable(name: string)
    | Other

  /** One declared parameter of a handler method: its literal name as the
      parameter-name discoverer reports it, and its annotations in order. */
  datatype Param = Param(name: string, annotations: seq<Annotation>)

  /** A handler method: an opaque identity, whether it carries
      `@EnableCombineRequest`, and its parameters (None when the parameter
      names cannot be discovered). */
  datatype Handler = Handler(id: nat, combinable: bool, signature: Option<seq<Param>>)

  /** One element of the argument array: null, a string, or a request value
      passed through unchanged. */
  datatype Arg = NullArg | Text(text: string) | Raw(value: Value)

  datatype BindFailure =
    | NullParamMap                  // `requestParamMap.get` on a null map
    | RequiredMissing(name: string) // the `Assert.isTrue` on a required parameter

  /** The outcome of binding a prefix of the parameters. */
  datatype Bound = Args(args: seq<Arg>) | Unbound(failure: BindFailure)

  /** The outcome of `getArgs` as a whole: the argument array, which is null
      when parameter names are unknown, or the exception it throws. */
  datatype ArgsResult = Array(elements: Option<seq<Arg>>) | BindError(failure: BindFailure)

  /** `Map.get` on the parameter map: null when the key is absent or holds a
      JSON null. */
  function Lookup(m: map<string, Value>, key: string): (r: Option<Value>)
    ensures r.Some? <==> key in m && !m[key].Null?
    ensures r.Some? ==> r.value == m[key]
  {
    if key in m && !m[key].Null? then Some(m[key]) else None
  }

  /** Whether the binder treats a parameter as `@RequestParam`: only the first
      annotation is inspected. */
  predicate IsRequestParam(p: Param)
  {
    |p.annotations| > 0 && p.annotations[0].RequestParam?
  }

  /** The one element a `@RequestParam` parameter contributes once its
      requirement check has passed. */
  function RequestParamArg(a: Annotation, m: map<string, Value>): (r: Arg)
    requires a.RequestParam?
    ensures r.NullArg? <==> Lookup(m, a.name).None? && ParseDefaultValue(a.defaultValue).None?
    ensures Lookup(m, a.name).Some? ==> r == Text(ToString(Lookup(m, a.name).value))
    ensures Lookup(m, a.name).None? && a.defaultValue != DEFAULT_NONE ==> r == Text(a.defaultValue)
  {
    var supplied := Lookup(m, a.name);
    var default := ParseDefaultValue(a.defaultValue);
    if supplied.Some? then Text(ToString(supplied.value))
    else if default.Some? then Text(default.value)
    else NullArg
  }

  /** Whether a required `@RequestParam` finds neither a value nor a default. */
  predicate MissingRequired(p: Param, m: map<string, Value>)
  {
    && IsRequestParam(p)
    && p.annotations[0].required
    && Lookup(m, p.annotations[0].name).None?
    && ParseDefaultValue(p.annotations[0].defaultValue).None?
  }

  /** One iteration of the binder's loop: what parameter `p` appends, or the
      exception it raises. A `@PathVariable` parameter is treated like an
      unannotated one and looked up by its literal name. */
  function BindParam(p: Param, paramMap: Option<map<string, Value>>): (r: Bound)
    ensures paramMap.None? ==> r == Unbound(NullParamMap)
    ensures paramMap.Some? && MissingRequired(p, paramMap.value) ==> r == Unbound(RequiredMissing(p.annotations[0].name))
    ensures r.Unbound? ==> paramMap.None? || MissingRequired(p, paramMap.value)
    ensures r.Args? ==> |r.args| <= 1
    ensures r.Args? && IsRequestParam(p) ==> r.args == [RequestParamArg(p.annotations[0], paramMap.value)]
    ensures r.Args? && !IsRequestParam(p) ==>
      if Lookup(paramMap.value, p.name).Some? then r.args == [Raw(paramMap.value[p.name])] else r.args == []
  {
    if paramMap.None? then Unbound(NullParamMap)
    else
      var m := paramMap.value;
      if IsRequestParam(p) then
        if MissingRequired(p, m) then Unbound(RequiredMissing(p.annotations[0].name))
        else Args([RequestParamArg(p.annotations[0], m)])
      else
        match Lookup(m, p.name)
        case Some(v) => Args([Raw(v)])
        case None => Args([])
  }

  /** Reference definition of the binder over a parameter list: the
      parameters' contributions concatenated in declaration order, or the
      first failure. */
  function BindAll(params: seq<Param>, paramMap: Option<map<string, Value>>): (r: Bound)
    ensures paramMap.None? && params != [] ==> r == Unbound(NullParamMap)
    ensures r.Args? ==> |r.args| <= |params|
    decreases |params|
  {
    if params == [] then Args([])
    else
      match BindAll(params[..|params| - 1], paramMap)
      case Unbound(f) => Unbound(f)
      case Args(prefix) =>
        match BindParam(params[|params| - 1], paramMap)
        case Unbound(f) => Unbound(f)
        case Args(more) => Args(prefix + more)
  }

  /** Reference definition of `getArgs`. */
  function BindSignature(signature: Option<seq<Param>>, paramMap: Option<map<string, Value>>): (b: ArgsResult)
    ensures b == Array(None) <==> signature.None?
    ensures b.Array? && signature.Some? ==> b.elements.Some? && |b.elements.value| <= |signature.value|
    ensures signature.Some? && signature.value != [] && paramMap.None? ==> b == BindError(NullParamMap)
  {
    match signature
    case None => Array(None)
    case Some(params) =>
      match BindAll(params, paramMap)
      case Unbound(f) => BindError(f)
      case Args(args) => Array(Some(args))
  }

  /** `getArgs`: walks the declared parameters in order and appends each one's
      contribution to the argument list. */
  method GetArgs(signature: Option<seq<Param>>, paramMap: Option<map<string, Value>>) returns (b: ArgsResult)
    ensures b == BindSignature(signature, paramMap)
    ensures signature.None? <==> b == Array(None)
  {
    if signature.None? {
      return Array(None);
    }
    var params := signature.value;
    var collected: seq<Arg> := [];
    var i := 0;
    while i < |params|
      invariant 0 <= i <= |params|
      invariant BindAll(params[..i], paramMap) == Args(collected)
    {
      assert params[..i + 1][..i] == params[..i];
      var step := BindParam(params[i], paramMap);
      if step.Unbound? {
        assert BindAll(params[..i + 1], paramMap) == Unbound(step.failure);
        BindFailureIsFinal(params, paramMap, i + 1);
        assert params[..|params|] == params;
        return BindError(step.failure);
      }
      collected := collected + step.args;
      i := i + 1;
    }
    assert params[..|params|] == params;
    return Array(Some(collected));
  }

  /** Once a prefix of the parameters fails to bind, the whole list fails
      with the same failure. */
  lemma {:induction false} BindFailureIsFinal(params: seq<Param>, paramMap: Option<map<string, Value>>, n: nat)
    requires n <= |params|
    requires BindAll(params[..n], paramMap).Unbound?
    ensures BindAll(params, paramMap) == BindAll(params[..n], paramMap)
    decreases |params| - n
  {
    if n < |params| {
      assert params[..n + 1][..n] == params[..n];
      BindFailureIsFinal(params, paramMap, n + 1);
    } else {
      assert params[..n] == params;
    }
  }

  // ---------------------------------------------------------------------------
  // Properties of the binder
  // ---------------------------------------------------------------------------

  /** The number of parameters that contribute no element: those that are not
      `@RequestParam` and whose literal name is absent from the map. */
  function Skipped(params: seq<Param>, m: map<string, Value>): nat
  {
    if params == [] then 0
    else
      var last := params[|params| - 1];
      Skipped(params[..|params| - 1], m) + (if !IsRequestParam(last) && Lookup(m, last.name).None? then 1 else 0)
  }

  /** Binding fails exactly when the map is null and there is a parameter, or
      some required `@RequestParam` has neither a value nor a default. */
  lemma {:induction false} BindFailsIff(params: seq<Param>, paramMap: Option<map<string, Value>>)
    ensures BindAll(params, paramMap).Unbound? <==>
      if paramMap.None? then |params| > 0
      else exists i :: 0 <= i < |params| && MissingRequired(params[i], paramMap.value)
    decreases |params|
  {
    if params != [] {
      var init := params[..|params| - 1];
      BindFailsIff(init, paramMap);
      if paramMap.Some? {
        var m := paramMap.value;
        if exists i :: 0 <= i < |params| && MissingRequired(params[i], m) {
          var i :| 0 <= i < |params| && MissingRequired(params[i], m);
          if i < |params| - 1 {
            assert init[i] == params[i];
          }
        }
        if exists i :: 0 <= i < |init| && MissingRequired(init[i], m) {
          var i :| 0 <= i < |init| && MissingRequired(init[i], m);
          assert params[i] == init[i];
        }
      }
    }
  }

  /** When binding succeeds, the argument list has one element per parameter
      except the skipped ones; in particular every `@RequestParam` contributes
      exactly one element, and the list can be shorter than the parameters. */
  lemma {:induction false} BindLength(params: seq<Param>, m: map<string, Value>)
    requires BindAll(params, Some(m)).Args?
    ensures |BindAll(params, Some(m)).args| == |params| - Skipped(params, m)
    decreases |params|
  {
    if params != [] {
      BindLength(params[..|params| - 1], m);
    }
  }

  /** The element a parameter contributes when it contributes one. */
  function Contribution(p: Param, m: map<string, Value>): Arg
  {
    if IsRequestParam(p) then RequestParamArg(p.annotations[0], m)
    else match Lookup(m, p.name)
      case Some(v) => Raw(v)
      case None => NullArg
  }

  /** Arguments follow declaration order: when no parameter is skipped, the
      i-th argument is the i-th parameter's contribution. */
  lemma {:induction false} BindPositional(params: seq<Param>, m: map<string, Value>)
    requires BindAll(params, Some(m)).Args?
    requires Skipped(params, m) == 0
    ensures |BindAll(params, Some(m)).args| == |params|
    ensures forall i :: 0 <= i < |params| ==> BindAll(params, Some(m)).args[i] == Contribution(params[i], m)
    decreases |params|
  {
    if params != [] {
      var init := params[..|params| - 1];
      BindPositional(init, m);
      var prefix := BindAll(init, Some(m)).args;
      var args := BindAll(params, Some(m)).args;
      forall i | 0 <= i < |params|
        ensures args[i] == Contribution(params[i], m)
      {
        if i < |params| - 1 {
          assert params[i] == init[i];
          assert args[i] == prefix[i];
        }
      }
    }
  }
}

=== FILE: dispatch.dfy ===
/** The combined-request endpoint `combine`: a resolution pass over all items
    that threads the batch flag, the per-call handler map and the route
    cache; the all-or-nothing gate; then one response per item. */
module Dispatch {
  import opened JavaLang
  import opened RequestItems
  import opened Binding
  import opened Routing

  /** Why a combined call ends with an exception instead of a response list. */
  datatype Failure =
    | NullField                  // a null url or method (NullPointerException)
    | NoSuchMethod(name: string) // `RequestMethod.valueOf` rejected the upper-cased method
    | NotSupported               // the batch flag was false after the resolution pass
    | Binder(cause: BindFailure) // `getArgs` threw; it runs outside the try
    | HandlerException           // the handler threw something other than IllegalArgumentException

  /** What reflective invocation of a handler does. */
  datatype Invocation<R> = Completed(value: R) | IllegalArgument | OtherException

  /** The outcome of the call: the response list, or the escaping exception. */
  datatype Outcome<R> = Accepted(responses: seq<ResponseItem<R>>) | Rejected(failure: Failure)

  /** The outcome, the route cache afterwards, and the handlers invoked, in order. */
  datatype CombineResult<R> = CombineResult(outcome: Outcome<R>, cache: Cache, invoked: seq<Handler>)

  /** What the response loop produces: the outcome and the handlers invoked, in order. */
  datatype Responses<R> = Responses(outcome: Outcome<R>, invoked: seq<Handler>)

  // ---------------------------------------------------------------------------
  // Per-item normalisation
  // ---------------------------------------------------------------------------

  /** An item the resolution pass gets through without an exception: url and
      method are present and the upper-cased method names a `RequestMethod`. */
  predicate WellFormed(item: RequestItem)
  {
    && item.url.Some?
    && item.httpMethod.Some?
    && ValueOf(ToUpperCase(item.httpMethod.value)).Some?
  }

  function ItemUrl(item: RequestItem): string
    requires WellFormed(item)
  {
    NormalizeUrl(item.url.value)
  }

  function ItemMethod(item: RequestItem): HttpMethod
    requires WellFormed(item)
  {
    ValueOf(ToUpperCase(item.httpMethod.value)).value
  }

  /** The cache key of a well-formed item. */
  function ItemKey(item: RequestItem): (k: string)
    requires WellFormed(item)
    ensures k == ItemUrl(item) + Name(ItemMethod(item))
    ensures k == RouteKey(item.url.value, item.httpMethod.value)
  {
    RouteKey(item.url.value, item.httpMethod.value)
  }

  /** The exception the resolution pass raises on an ill-formed item. */
  function FailureOf(item: RequestItem): (f: Failure)
    ensures f.NullField? <==> item.url.None? || item.httpMethod.None?
    ensures !WellFormed(item) ==> f.NullField? || (f.NoSuchMethod? && ValueOf(f.name).None?)
    ensures f.NoSuchMethod? ==> item.httpMethod.Some? && f.name == ToUpperCase(item.httpMethod.value)
  {
    if item.url.None? || item.httpMethod.None? then NullField
    else NoSuchMethod(ToUpperCase(item.httpMethod.value))
  }

  // ---------------------------------------------------------------------------
  // Resolution pass
  // ---------------------------------------------------------------------------

  /** The state after resolving some items, or the exception and the cache as
      it stood when it was raised. */
  datatype Progress = Continue(st: ScanState) | Stop(failure: Failure, cache: Cache)

  function CacheOf(p: Progress): Cache
  {
    match p
    case Continue(st) => st.cache
    case Stop(_, cache) => cache
  }

  /** Nothing the cache held is changed or removed. */
  predicate Extends(before: Cache, after: Cache)
  {
    forall k :: k in before ==> k in after && after[k] == before[k]
  }

  /** One item of the resolution pass: normalise, then a cache hit records
      the cached handler (unless the flag is already false) and a miss scans
      the route table. */
  function ResolveItem(item: RequestItem, routes: seq<RouteEntry>, matches: (string, string) -> bool,
                       st: ScanState): (r: Progress)
    ensures r.Stop? <==> !WellFormed(item)
    ensures r.Stop? ==> r == Stop(FailureOf(item), st.cache)
    ensures Extends(st.cache, CacheOf(r))
    ensures r.Continue? && r.st.valid ==> st.valid
    ensures r.Continue? && ItemKey(item) in st.cache ==>
      r.st == if st.valid then st.(resolved := st.resolved[item := st.cache[ItemKey(item)]]) else st
    ensures r.Continue? && ItemKey(item) !in st.cache ==>
      r.st == Scan(routes, item, ItemUrl(item), ItemMethod(item), ItemKey(item), matches, st)
  {
    if item.url.None? || item.httpMethod.None? then Stop(NullField, st.cache)
    else
      var url := NormalizeUrl(item.url.value);
      var upper := ToUpperCase(item.httpMethod.value);
      match ValueOf(upper)
      case None => Stop(NoSuchMethod(upper), st.cache)
      case Some(m) =>
        var key := url + upper;
        if key in st.cache then
          if !st.valid then Continue(st)
          else Continue(st.(resolved := st.resolved[item := st.cache[key]]))
        else
          Continue(Scan(routes, item, url, m, key, matches, st))
  }

  /** The resolution pass over the items in order; the first exception ends it. */
  function Resolve(items: seq<RequestItem>, routes: seq<RouteEntry>, matches: (string, string) -> bool,
                   st: ScanState): (r: Progress)
    ensures r.Stop? <==> exists i :: 0 <= i < |items| && !WellFormed(items[i])
    ensures r.Stop? ==> r.failure.NullField? || r.failure.NoSuchMethod?
    ensures Extends(st.cache, CacheOf(r))
    ensures r.Continue? && r.st.valid ==> st.valid
    decreases |items|
  {
    if items == [] then Continue(st)
    else
      match ResolveItem(items[0], routes, matches, st)
      case Stop(f, c) => Stop(f, c)
      case Continue(next) =>
        var r := Resolve(items[1..], routes, matches, next);
        IllFormedInTail(items);
        r
  }

  /** With a well-formed head, the list has an ill-formed item exactly when its tail has. */
  lemma IllFormedInTail(items: seq<RequestItem>)
    requires items != [] && WellFormed(items[0])
    ensures (exists i :: 0 <= i < |items| && !WellFormed(items[i]))
        <==> (exists i :: 0 <= i < |items[1..]| && !WellFormed(items[1..][i]))
  {
    if exists i :: 0 <= i < |items| && !WellFormed(items[i]) {
      var i :| 0 <= i < |items| && !WellFormed(items[i]);
      assert items[1..][i - 1] == items[i];
    }
    if exists i :: 0 <= i < |items[1..]| && !WellFormed(items[1..][i]) {
      var i :| 0 <= i < |items[1..]| && !WellFormed(items[1..][i]);
      assert items[i + 1] == items[1..][i];
    }
  }

  /** The position of the first ill-formed item, or the length when there is none. */
  function FirstIllFormed(items: seq<RequestItem>): (k: nat)
    ensures k <= |items|
    decreases |items|
  {
    if items == [] || !WellFormed(items[0]) then 0 else 1 + FirstIllFormed(items[1..])
  }

  /** Every item before `FirstIllFormed` is well-formed, and the item at it,
      if any, is not. */
  lemma {:induction false} FirstIllFormedBounds(items: seq<RequestItem>)
    ensures forall j :: 0 <= j < FirstIllFormed(items) ==> WellFormed(items[j])
    ensures FirstIllFormed(items) < |items| ==> !WellFormed(items[FirstIllFormed(items)])
    decreases |items|
  {
    if items != [] && WellFormed(items[0]) {
      var tail := items[1..];
      FirstIllFormedBounds(tail);
      var k := FirstIllFormed(items);
      assert k == 1 + FirstIllFormed(tail);
      assert forall j :: 0 < j <= |tail| ==> items[j] == tail[j - 1];
    }
  }

  /** `FirstIllFormed` points at an ill-formed item with only well-formed
      items before it, and is short of the length exactly when some item is
      ill-formed. */
  lemma {:induction false} FirstIllFormedIsFirst(items: seq<RequestItem>)
    ensures forall j :: 0 <= j < FirstIllFormed(items) ==> WellFormed(items[j])
    ensures FirstIllFormed(items) < |items| ==> !WellFormed(items[FirstIllFormed(items)])
    ensures FirstIllFormed(items) < |items| <==> exists i :: 0 <= i < |items| && !WellFormed(items[i])
  {
    FirstIllFormedBounds(items);
  }

  /** The exception that ends the pass is the one the first ill-formed item
      raises. */
  lemma {:induction false} ResolveStopsAtFirst(items: seq<RequestItem>, routes: seq<RouteEntry>,
                                               matches: (string, string) -> bool, st: ScanState)
    requires Resolve(items, routes, matches, st).Stop?
    ensures FirstIllFormed(items) < |items|
    ensures Resolve(items, routes, matches, st).failure == FailureOf(items[FirstIllFormed(items)])
    decreases |items|
  {
    if WellFormed(items[0]) {
      var next := ResolveItem(items[0], routes, matches, st).st;
      ResolveCons(items, routes, matches, st);
      ResolveStopsAtFirst(items[1..], routes, matches, next);
      assert items[FirstIllFormed(items)] == items[1..][FirstIllFormed(items[1..])];
    }
  }

  /** The batch gate for one item: it is well-formed, and its key is already
      cached or every route entry serves it and is enabled. */
  predicate Admissible(item: RequestItem, routes: seq<RouteEntry>, cache: Cache, matches: (string, string) -> bool)
  {
    && WellFormed(item)
    && (ItemKey(item) in cache || AllServe(routes, ItemUrl(item), ItemMethod(item), matches))
  }

  /** Keys added since `base` belong to urls and methods every entry serves
      and enables. */
  predicate NewKeysServed(base: Cache, cache: Cache, routes: seq<RouteEntry>, matches: (string, string) -> bool)
  {
    forall k :: k in cache && k !in base ==>
      match SplitKey(k)
      case None => false
      case Some(split) => AllServe(routes, split.0, split.1, matches)
  }

  /** A flag that is false stays false. */
  lemma ResolveInvalidStays(items: seq<RequestItem>, routes: seq<RouteEntry>,
                             matches: (string, string) -> bool, st: ScanState)
    requires !st.valid
    ensures Resolve(items, routes, matches, st).Continue? ==> !Resolve(items, routes, matches, st).st.valid
  {
  }

  /** One item of the gate: starting from a valid state that keeps the
      invariants, the flag survives the item exactly when it is admissible,
      and the invariants still hold afterwards. */
  lemma ResolveItemGate(item: RequestItem, routes: seq<RouteEntry>, matches: (string, string) -> bool,
                        base: Cache, st: ScanState)
    requires WellFormed(item)
    requires st.valid
    requires base.Keys <= st.cache.Keys
    requires NewKeysServed(base, st.cache, routes, matches)
    ensures ResolveItem(item, routes, matches, st).Continue?
    ensures ResolveItem(item, routes, matches, st).st.valid <==> Admissible(item, routes, base, matches)
    ensures base.Keys <= ResolveItem(item, routes, matches, st).st.cache.Keys
    ensures ResolveItem(item, routes, matches, st).st.valid ==>
      NewKeysServed(base, ResolveItem(item, routes, matches, st).st.cache, routes, matches)
  {
    var next := ResolveItem(item, routes, matches, st).st;
    var key := ItemKey(item);
    var url := ItemUrl(item);
    var m := ItemMethod(item);
    SplitKeyRoundTrip(url, m);
    if key in st.cache {
      assert next.cache == st.cache;
      if key !in base {
        assert AllServe(routes, url, m, matches);
      }
    } else {
      assert next.valid <==> AllServe(routes, url, m, matches);
      if next.valid {
        forall k | k in next.cache && k !in base
          ensures SplitKey(k).Some? && AllServe(routes, SplitKey(k).value.0, SplitKey(k).value.1, matches)
        {
          if k != key {
            assert k in st.cache;
          }
        }
      }
    }
  }

  predicate AllAdmissible(items: seq<RequestItem>, routes: seq<RouteEntry>, cache: Cache,
                          matches: (string, string) -> bool)
  {
    forall i :: 0 <= i < |items| ==> Admissible(items[i], routes, cache, matches)
  }

  lemma AllAdmissibleCons(items: seq<RequestItem>, routes: seq<RouteEntry>, cache: Cache,
                          matches: (string, string) -> bool)
    requires items != []
    ensures AllAdmissible(items, routes, cache, matches) <==>
      Admissible(items[0], routes, cache, matches) && AllAdmissible(items[1..], routes, cache, matches)
  {
    var tail := items[1..];
    if AllAdmissible(items, routes, cache, matches) {
      forall i | 0 <= i < |tail|
        ensures Admissible(tail[i], routes, cache, matches)
      {
        assert tail[i] == items[i + 1];
      }
    }
    if Admissible(items[0], routes, cache, matches) && AllAdmissible(tail, routes, cache, matches) {
      forall i | 0 <= i < |items|
        ensures Admissible(items[i], routes, cache, matches)
      {
        if i > 0 {
          assert items[i] == tail[i - 1];
        }
      }
    }
  }

  lemma ResolveCons(items: seq<RequestItem>, routes: seq<RouteEntry>, matches: (string, string) -> bool,
                    st: ScanState)
    requires items != []
    requires ResolveItem(items[0], routes, matches, st).Continue?
    ensures Resolve(items, routes, matches, st)
         == Resolve(items[1..], routes, matches, ResolveItem(items[0], routes, matches, st).st)
  {
  }

  /** The gate, stated for any starting state that keeps the invariants of
      the pass. */
  lemma {:induction false} ResolveGateFrom(items: seq<RequestItem>, routes: seq<RouteEntry>,
                                           matches: (string, string) -> bool, base: Cache, st: ScanState)
    requires base.Keys <= st.cache.Keys
    requires st.valid ==> NewKeysServed(base, st.cache, routes, matches)
    ensures (Resolve(items, routes, matches, st).Continue? && Resolve(items, routes, matches, st).st.valid)
            <==> st.valid && AllAdmissible(items, routes, base, matches)
    decreases |items|
  {
    if items == [] {
    } else if !st.valid {
      ResolveInvalidStays(items, routes, matches, st);
    } else {
      AllAdmissibleCons(items, routes, base, matches);
      if !WellFormed(items[0]) {
        assert !Admissible(items[0], routes, base, matches);
      } else {
        ResolveItemGate(items[0], routes, matches, base, st);
        var next := ResolveItem(items[0], routes, matches, st).st;
        ResolveCons(items, routes, matches, st);
        if next.valid {
          ResolveGateFrom(items[1..], routes, matches, base, next);
        } else {
          ResolveInvalidStays(items[1..], routes, matches, next);
        }
      }
    }
  }

  /** The batch gate: the resolution pass finishes with the flag still true
      exactly when every item is well-formed and either hits the cache or is
      served and enabled by every route entry. */
  lemma ResolutionGate(items: seq<RequestItem>, routes: seq<RouteEntry>, cache: Cache,
                       matches: (string, string) -> bool)
    ensures (Resolve(items, routes, matches, ScanState(true, map[], cache)).Continue?
             && Resolve(items, routes, matches, ScanState(true, map[], cache)).st.valid)
            <==> AllAdmissible(items, routes, cache, matches)
  {
    ResolveGateFrom(items, routes, matches, cache, ScanState(true, map[], cache));
  }

  // ---------------------------------------------------------------------------
  // Response assembly
  // ---------------------------------------------------------------------------

  /** The answer for one item: a response, or the exception that escapes. */
  datatype Answer<R> = Answered(response: ResponseItem<R>, invoked: seq<Handler>) | Raised(failure: Failure, invoked: seq<Handler>)

  /** One item of the response loop, given the handler the per-call map holds
      for it (None when it holds none). */
  function AnswerItem<R>(item: RequestItem, handler: Option<Handler>,
                         invoke: (Handler, Option<seq<Arg>>) -> Invocation<R>): (r: Answer<R>)
    ensures r.Answered? ==> r.response.requestId == item.requestId && r.response.url == item.url
    ensures r.Answered? ==> r.response.httpStatus in {OK, BAD_REQUEST, NOT_FOUND}
    ensures handler.None? <==> r.Answered? && r.response.httpStatus == NOT_FOUND
    ensures handler.None? ==> r == Answered(ResponseItem(item.requestId, item.url, NOT_FOUND, NoEntity), [])
    ensures r.Answered? && r.response.httpStatus == OK ==>
      && handler.Some?
      && r.invoked == [handler.value]
      && BindSignature(handler.value.signature, item.param).Array?
      && r.response.entity.Returned?
      && invoke(handler.value, BindSignature(handler.value.signature, item.param).elements) == Completed(r.response.entity.value)
    ensures r.Answered? && r.response.httpStatus == BAD_REQUEST ==>
      handler.Some? && r.invoked == [handler.value] && r.response.entity == Message("bad request")
    ensures r.Raised? ==> handler.Some? && (r.failure.Binder? || r.failure == HandlerException)
    ensures r.Raised? && r.invoked == [] ==> BindSignature(handler.value.signature, item.param).BindError?
    ensures handler.Some? ==>
      var b := BindSignature(handler.value.signature, item.param);
      && (b.BindError? ==> r == Raised(Binder(b.failure), []))
      && (b.Array? ==> r.invoked == [handler.value])
      && (b.Array? && invoke(handler.value, b.elements).Completed? ==>
            r == Answered(ResponseItem(item.requestId, item.url, OK, Returned(invoke(handler.value, b.elements).value)), [handler.value]))
      && (b.Array? && invoke(handler.value, b.elements).IllegalArgument? ==>
            r == Answered(ResponseItem(item.requestId, item.url, BAD_REQUEST, Message("bad request")), [handler.value]))
      && (b.Array? && invoke(handler.value, b.elements).OtherException? ==> r == Raised(HandlerException, [handler.value]))
  {
    match handler
    case None => Answered(ResponseItem(item.requestId, item.url, NOT_FOUND, NoEntity), [])
    case Some(h) =>
      match BindSignature(h.signature, item.param)
      case BindError(f) => Raised(Binder(f), [])
      case Array(args) =>
        match invoke(h, args)
        case Completed(v) => Answered(ResponseItem(item.requestId, item.url, OK, Returned(v)), [h])
        case IllegalArgument => Answered(ResponseItem(item.requestId, item.url, BAD_REQUEST, Message("bad request")), [h])
        case OtherException => Raised(HandlerException, [h])
  }

  /** The per-call map's `get`. */
  function HandlerFor(resolved: map<RequestItem, Handler>, item: RequestItem): (h: Option<Handler>)
    ensures h.Some? <==> item in resolved
    ensures h.Some? ==> h.value == resolved[item]
  {
    if item in resolved then Some(resolved[item]) else None
  }

  /** The response loop over the items in input order; the first escaping
      exception ends the call. */
  function Respond<R>(items: seq<RequestItem>, resolved: map<RequestItem, Handler>,
                      invoke: (Handler, Option<seq<Arg>>) -> Invocation<R>): (r: Responses<R>)
    ensures r.outcome.Accepted? <==> forall i :: 0 <= i < |items| ==> AnswerItem(items[i], HandlerFor(resolved, items[i]), invoke).Answered?
    ensures r.outcome.Accepted? ==>
      && |r.outcome.responses| == |items|
      && forall i :: 0 <= i < |items| ==> r.outcome.responses[i] == AnswerItem(items[i], HandlerFor(resolved, items[i]), invoke).response
    ensures r.outcome.Rejected? ==> r.outcome.failure.Binder? || r.outcome.failure == HandlerException
    ensures forall h :: h in r.invoked ==> h in resolved.Values
    decreases |items|
  {
    if items == [] then Responses(Accepted([]), [])
    else
      var rest := Respond(items[1..], resolved, invoke);
      assert forall i :: 1 <= i < |items| ==> items[i] == items[1..][i - 1];
      match AnswerItem(items[0], HandlerFor(resolved, items[0]), invoke)
      case Raised(f, inv) => Responses(Rejected(f), inv)
      case Answered(resp, inv) =>
        var outcome := match rest.outcome
          case Accepted(rs) => Accepted([resp] + rs)
          case Rejected(f) => Rejected(f);
        Responses(outcome, inv + rest.invoked)
  }

  /** The position of the first item whose answer raises, or the length when
      every item is answered. */
  function FirstRaise<R>(items: seq<RequestItem>, resolved: map<RequestItem, Handler>,
                         invoke: (Handler, Option<seq<Arg>>) -> Invocation<R>): (k: nat)
    ensures k <= |items|
    decreases |items|
  {
    if items == [] || AnswerItem(items[0], HandlerFor(resolved, items[0]), invoke).Raised? then 0
    else 1 + FirstRaise(items[1..], resolved, invoke)
  }

  /** `FirstRaise` points at a raising item with only answered items before it. */
  lemma {:induction false} FirstRaiseIsFirst<R>(items: seq<RequestItem>, resolved: map<RequestItem, Handler>,
                                                invoke: (Handler, Option<seq<Arg>>) -> Invocation<R>)
    ensures forall j :: 0 <= j < FirstRaise(items, resolved, invoke) ==>
      AnswerItem(items[j], HandlerFor(resolved, items[j]), invoke).Answered?
    ensures FirstRaise(items, resolved, invoke) < |items| ==>
      AnswerItem(items[FirstRaise(items, resolved, invoke)], HandlerFor(resolved, items[FirstRaise(items, resolved, invoke)]), invoke).Raised?
    decreases |items|
  {
    if items != [] && AnswerItem(items[0], HandlerFor(resolved, items[0]), invoke).Answered? {
      var tail := items[1..];
      FirstRaiseIsFirst(tail, resolved, invoke);
      var k := FirstRaise(items, resolved, invoke);
      assert k == 1 + FirstRaise(tail, resolved, invoke);
      forall j | 0 <= j < k
        ensures AnswerItem(items[j], HandlerFor(resolved, items[j]), invoke).Answered?
      {
        if j > 0 {
          assert items[j] == tail[j - 1];
        }
      }
      if k < |items| {
        assert items[k] == tail[k - 1];
      }
    }
  }

  /** A rejected answering pass reports the exception of the first item whose
      answer raises. */
  lemma {:induction false} RespondRejectedAtFirstRaise<R>(items: seq<RequestItem>, resolved: map<RequestItem, Handler>,
                                                          invoke: (Handler, Option<seq<Arg>>) -> Invocation<R>)
    requires Respond(items, resolved, invoke).outcome.Rejected?
    ensures FirstRaise(items, resolved, invoke) < |items|
    ensures AnswerItem(items[FirstRaise(items, resolved, invoke)], HandlerFor(resolved, items[FirstRaise(items, resolved, invoke)]), invoke).Raised?
    ensures Respond(items, resolved, invoke).outcome.failure
         == AnswerItem(items[FirstRaise(items, resolved, invoke)], HandlerFor(resolved, items[FirstRaise(items, resolved, invoke)]), invoke).failure
    decreases |items|
  {
    if AnswerItem(items[0], HandlerFor(resolved, items[0]), invoke).Answered? {
      var tail := items[1..];
      RespondRejectedAtFirstRaise(tail, resolved, invoke);
      assert items[FirstRaise(items, resolved, invoke)] == tail[FirstRaise(tail, resolved, invoke)];
    }
  }

  // ---------------------------------------------------------------------------
  // The endpoint
  // ---------------------------------------------------------------------------

  /** `combine`: resolve every item against the route cache and table, reject
      the call if the flag ended false, otherwise answer each item. The
      cache is returned in every case, since the pass writes it before any
      exception. */
  function Combine<R>(items: seq<RequestItem>, routes: seq<RouteEntry>, cache: Cache,
                      matches: (string, string) -> bool,
                      invoke: (Handler, Option<seq<Arg>>) -> Invocation<R>): (res: CombineResult<R>)
    ensures Extends(cache, res.cache)
    ensures res.outcome.Accepted? ==>
      && |res.outcome.responses| == |items|
      && forall i :: 0 <= i < |items| ==>
           res.outcome.responses[i].requestId == items[i].requestId
           && res.outcome.responses[i].url == items[i].url
           && res.outcome.responses[i].httpStatus in {OK, BAD_REQUEST, NOT_FOUND}
    ensures (exists i :: 0 <= i < |items| && !WellFormed(items[i])) ==>
      res.outcome.Rejected? && res.invoked == [] && res.outcome.failure != NotSupported
  {
    match Resolve(items, routes, matches, ScanState(true, map[], cache))
    case Stop(f, c) => CombineResult(Rejected(f), c, [])
    case Continue(st) =>
      if !st.valid then CombineResult(Rejected(NotSupported), st.cache, [])
      else
        var ex := Respond(items, st.resolved, invoke);
        CombineResult(ex.outcome, st.cache, ex.invoked)
  }

  // ---------------------------------------------------------------------------
  // Properties of the endpoint
  // ---------------------------------------------------------------------------

  /** The call is rejected, before any handler runs, unless every item passes
      the gate; when the gate holds it is rejected only by a binding or
      handler exception. An ill-formed item is reported as such; otherwise a
      failed gate reads "not supported". */
  lemma CombineGate<R>(items: seq<RequestItem>, routes: seq<RouteEntry>, cache: Cache,
                       matches: (string, string) -> bool, invoke: (Handler, Option<seq<Arg>>) -> Invocation<R>)
    ensures !AllAdmissible(items, routes, cache, matches) ==>
      && Combine(items, routes, cache, matches, invoke).outcome.Rejected?
      && Combine(items, routes, cache, matches, invoke).invoked == []
    ensures (forall i :: 0 <= i < |items| ==> WellFormed(items[i])) && !AllAdmissible(items, routes, cache, matches) ==>
      Combine(items, routes, cache, matches, invoke).outcome == Rejected(NotSupported)
    ensures AllAdmissible(items, routes, cache, matches) ==>
      || Combine(items, routes, cache, matches, invoke).outcome.Accepted?
      || Combine(items, routes, cache, matches, invoke).outcome.failure.Binder?
      || Combine(items, routes, cache, matches, invoke).outcome.failure == HandlerException
  {
    ResolutionGate(items, routes, cache, matches);
    var r := Resolve(items, routes, matches, ScanState(true, map[], cache));
    var res := Combine(items, routes, cache, matches, invoke);
    if r.Stop? {
      assert res == CombineResult(Rejected(r.failure), r.cache, []);
    } else if !r.st.valid {
      assert res == CombineResult(Rejected(NotSupported), r.st.cache, []);
    }
  }

  /** An ill-formed batch is rejected with the exception of its first
      ill-formed item, before any handler runs: a null field or the
      upper-cased method `valueOf` does not know. */
  lemma CombineFailsAtFirstIllFormed<R>(items: seq<RequestItem>, routes: seq<RouteEntry>, cache: Cache,
                                        matches: (string, string) -> bool,
                                        invoke: (Handler, Option<seq<Arg>>) -> Invocation<R>)
    ensures FirstIllFormed(items) < |items| ==>
      && Combine(items, routes, cache, matches, invoke).outcome == Rejected(FailureOf(items[FirstIllFormed(items)]))
      && Combine(items, routes, cache, matches, invoke).invoked == []
  {
    FirstIllFormedIsFirst(items);
    var r := Resolve(items, routes, matches, ScanState(true, map[], cache));
    if r.Stop? {
      ResolveStopsAtFirst(items, routes, matches, ScanState(true, map[], cache));
    }
  }

  /** A cache entry records a handler of an entry that serves the url and
      method the key spells; whether that handler is enabled plays no part. */
  predicate CachedFromTable(k: string, h: Handler, routes: seq<RouteEntry>, matches: (string, string) -> bool)
  {
    match SplitKey(k)
    case None => false
    case Some(split) =>
      exists j :: 0 <= j < |routes| && Serves(routes[j], split.0, split.1, matches) && routes[j].handler == h
  }

  predicate CacheSound(cache: Cache, routes: seq<RouteEntry>, matches: (string, string) -> bool)
  {
    forall k :: k in cache ==> CachedFromTable(k, cache[k], routes, matches)
  }

  lemma ResolveItemKeepsCacheSound(item: RequestItem, routes: seq<RouteEntry>, matches: (string, string) -> bool,
                                   st: ScanState)
    requires CacheSound(st.cache, routes, matches)
    ensures CacheSound(CacheOf(ResolveItem(item, routes, matches, st)), routes, matches)
  {
    var r := ResolveItem(item, routes, matches, st);
    if r.Continue? && ItemKey(item) !in st.cache {
      var key := ItemKey(item);
      SplitKeyRoundTrip(ItemUrl(item), ItemMethod(item));
      if key in r.st.cache {
        ScanCachesServingHandler(routes, item, ItemUrl(item), ItemMethod(item), key, matches, st);
      }
      forall k | k in r.st.cache
        ensures CachedFromTable(k, r.st.cache[k], routes, matches)
      {
        if k != key {
          assert k in st.cache && r.st.cache[k] == st.cache[k];
        }
      }
    }
  }

  lemma {:induction false} ResolveKeepsCacheSound(items: seq<RequestItem>, routes: seq<RouteEntry>,
                                                  matches: (string, string) -> bool, st: ScanState)
    requires CacheSound(st.cache, routes, matches)
    ensures CacheSound(CacheOf(Resolve(items, routes, matches, st)), routes, matches)
    decreases |items|
  {
    if items != [] {
      ResolveItemKeepsCacheSound(items[0], routes, matches, st);
      var step := ResolveItem(items[0], routes, matches, st);
      if step.Continue? {
        ResolveCons(items, routes, matches, st);
        ResolveKeepsCacheSound(items[1..], routes, matches, step.st);
      }
    }
  }

  /** The cache only ever holds handlers of entries that serve the cached
      url and method, accepted call or not. */
  lemma CombineKeepsCacheSound<R>(items: seq<RequestItem>, routes: seq<RouteEntry>, cache: Cache,
                                  matches: (string, string) -> bool, invoke: (Handler, Option<seq<Arg>>) -> Invocation<R>)
    requires CacheSound(cache, routes, matches)
    ensures CacheSound(Combine(items, routes, cache, matches, invoke).cache, routes, matches)
  {
    ResolveKeepsCacheSound(items, routes, matches, ScanState(true, map[], cache));
  }

  /** Every item in the per-call map is mapped to the cached handler of its key. */
  predicate ResolvedFromCache(st: ScanState)
  {
    forall it :: it in st.resolved ==>
      WellFormed(it) && ItemKey(it) in st.cache && st.resolved[it] == st.cache[ItemKey(it)]
  }

  lemma ResolveItemKeepsResolvedFromCache(item: RequestItem, routes: seq<RouteEntry>,
                                          matches: (string, string) -> bool, st: ScanState)
    requires ResolvedFromCache(st)
    requires ResolveItem(item, routes, matches, st).Continue?
    ensures ResolvedFromCache(ResolveItem(item, routes, matches, st).st)
  {
    var r := ResolveItem(item, routes, matches, st).st;
    var key := ItemKey(item);
    if key !in st.cache {
      forall it | it in r.resolved
        ensures WellFormed(it) && ItemKey(it) in r.cache && r.resolved[it] == r.cache[ItemKey(it)]
      {
        if it != item {
          assert it in st.resolved;
          assert ItemKey(it) != key;
        }
      }
    }
  }

  /** One item of a pass that keeps the flag true: the per-call map only
      grows, holds the item when the table is non-empty or its key was
      cached, and with an empty table gains only items whose key was cached. */
  lemma ResolveItemMembership(item: RequestItem, routes: seq<RouteEntry>,
                              matches: (string, string) -> bool, st: ScanState)
    requires ResolvedFromCache(st)
    requires ResolveItem(item, routes, matches, st).Continue?
    requires ResolveItem(item, routes, matches, st).st.valid
    ensures var next := ResolveItem(item, routes, matches, st).st;
      && ResolvedFromCache(next)
      && st.resolved.Keys <= next.resolved.Keys
      && (|routes| > 0 ==> item in next.resolved)
      && (ItemKey(item) in st.cache ==> item in next.resolved)
      && (|routes| == 0 ==> next.cache == st.cache)
      && (|routes| == 0 ==> forall it :: it in next.resolved ==>
            it in st.resolved || (WellFormed(it) && ItemKey(it) in st.cache))
  {
    ResolveItemKeepsResolvedFromCache(item, routes, matches, st);
    var next := ResolveItem(item, routes, matches, st).st;
    if ItemKey(item) !in st.cache {
      assert next == Scan(routes, item, ItemUrl(item), ItemMethod(item), ItemKey(item), matches, st);
      if |routes| > 0 {
        assert item in next.resolved;
      }
    }
  }

  /** On a pass that keeps the flag true: the per-call map stays consistent
      with the cache; every item is in it when the table is non-empty; and
      with an empty table an item is in it only if it was already, or its
      key was cached. */
  lemma {:induction false} ResolveMembership(items: seq<RequestItem>, routes: seq<RouteEntry>,
                                             matches: (string, string) -> bool, st: ScanState)
    requires ResolvedFromCache(st)
    requires Resolve(items, routes, matches, st).Continue?
    requires Resolve(items, routes, matches, st).st.valid
    ensures ResolvedFromCache(Resolve(items, routes, matches, st).st)
    ensures st.resolved.Keys <= Resolve(items, routes, matches, st).st.resolved.Keys
    ensures |routes| > 0 ==> forall i :: 0 <= i < |items| ==> items[i] in Resolve(items, routes, matches, st).st.resolved
    ensures forall i :: 0 <= i < |items| && ItemKey(items[i]) in st.cache ==> items[i] in Resolve(items, routes, matches, st).st.resolved
    ensures |routes| == 0 ==> Resolve(items, routes, matches, st).st.cache == st.cache
    ensures |routes| == 0 ==> forall it :: it in Resolve(items, routes, matches, st).st.resolved ==>
      it in st.resolved || (WellFormed(it) && ItemKey(it) in st.cache)
    decreases |items|
  {
    if items != [] {
      var item, rest := items[0], items[1..];
      var next := ResolveItem(item, routes, matches, st).st;
      var fin := Resolve(items, routes, matches, st).st;
      ResolveCons(items, routes, matches, st);
      assert Resolve(rest, routes, matches, next) == Continue(fin);
      ResolveItemMembership(item, routes, matches, st);
      ResolveMembership(rest, routes, matches, next);
      forall i | 0 <= i < |items| && (|routes| > 0 || ItemKey(items[i]) in st.cache)
        ensures items[i] in fin.resolved
      {
        if i > 0 {
          assert items[i] == rest[i - 1];
          assert ItemKey(items[i]) in st.cache ==> ItemKey(items[i]) in next.cache;
        }
      }
    }
  }

  /** An accepted call is the response loop run on the per-call map of a
      pass that kept the flag true. */
  lemma CombineAccepted<R>(items: seq<RequestItem>, routes: seq<RouteEntry>, cache: Cache,
                           matches: (string, string) -> bool, invoke: (Handler, Option<seq<Arg>>) -> Invocation<R>)
    ensures Combine(items, routes, cache, matches, invoke).outcome.Accepted? ==>
      var r := Resolve(items, routes, matches, ScanState(true, map[], cache));
      && r.Continue? && r.st.valid
      && Combine(items, routes, cache, matches, invoke).cache == r.st.cache
      && |Combine(items, routes, cache, matches, invoke).outcome.responses| == |items|
      && forall i :: 0 <= i < |items| ==>
           && AnswerItem(items[i], HandlerFor(r.st.resolved, items[i]), invoke).Answered?
           && Combine(items, routes, cache, matches, invoke).outcome.responses[i]
              == AnswerItem(items[i], HandlerFor(r.st.resolved, items[i]), invoke).response
  {
  }

  /** What an accepted call knows about its pass: every item is well-formed,
      the per-call map agrees with the cache, and the membership facts of
      `ResolveMembership` hold. */
  predicate PassFacts(items: seq<RequestItem>, routes: seq<RouteEntry>, cache: Cache, st: ScanState)
  {
    && (forall i :: 0 <= i < |items| ==> WellFormed(items[i]))
    && ResolvedFromCache(st)
    && Extends(cache, st.cache)
    && (|routes| > 0 ==> forall i :: 0 <= i < |items| ==> items[i] in st.resolved)
    && (forall i :: 0 <= i < |items| && ItemKey(items[i]) in cache ==> items[i] in st.resolved)
    && (|routes| == 0 ==> st.cache == cache)
    && (|routes| == 0 ==> forall it :: it in st.resolved ==> WellFormed(it) && ItemKey(it) in cache)
  }

  lemma AcceptedPassFacts<R>(items: seq<RequestItem>, routes: seq<RouteEntry>, cache: Cache,
                             matches: (string, string) -> bool, invoke: (Handler, Option<seq<Arg>>) -> Invocation<R>)
    requires Combine(items, routes, cache, matches, invoke).outcome.Accepted?
    ensures var st := Resolve(items, routes, matches, ScanState(true, map[], cache)).st;
      && PassFacts(items, routes, cache, st)
      && |Combine(items, routes, cache, matches, invoke).outcome.responses| == |items|
      && forall i :: 0 <= i < |items| ==>
           && AnswerItem(items[i], HandlerFor(st.resolved, items[i]), invoke).Answered?
           && Combine(items, routes, cache, matches, invoke).outcome.responses[i]
              == AnswerItem(items[i], HandlerFor(st.resolved, items[i]), invoke).response
  {
    var st0 := ScanState(true, map[], cache);
    CombineAccepted(items, routes, cache, matches, invoke);
    ResolveMembership(items, routes, matches, st0);
  }

  lemma NotFoundFromPass<R>(items: seq<RequestItem>, routes: seq<RouteEntry>, cache: Cache, st: ScanState,
                            responses: seq<ResponseItem<R>>, invoke: (Handler, Option<seq<Arg>>) -> Invocation<R>)
    requires PassFacts(items, routes, cache, st)
    requires |responses| == |items|
    requires forall i :: 0 <= i < |items| ==>
      && AnswerItem(items[i], HandlerFor(st.resolved, items[i]), invoke).Answered?
      && responses[i] == AnswerItem(items[i], HandlerFor(st.resolved, items[i]), invoke).response
    ensures forall i :: 0 <= i < |items| ==>
      WellFormed(items[i]) && (responses[i].httpStatus == NOT_FOUND <==> |routes| == 0 && ItemKey(items[i]) !in cache)
  {
    forall i | 0 <= i < |items|
      ensures responses[i].httpStatus == NOT_FOUND <==> |routes| == 0 && ItemKey(items[i]) !in cache
    {
      var a := AnswerItem(items[i], HandlerFor(st.resolved, items[i]), invoke);
      assert a.response.httpStatus == NOT_FOUND <==> items[i] !in st.resolved;
    }
  }

  /** An accepted item is answered 404 exactly when the route table is empty
      and its key was not cached: otherwise the pass put it in the per-call map. */
  lemma NotFoundIff<R>(items: seq<RequestItem>, routes: seq<RouteEntry>, cache: Cache,
                       matches: (string, string) -> bool, invoke: (Handler, Option<seq<Arg>>) -> Invocation<R>)
    requires Combine(items, routes, cache, matches, invoke).outcome.Accepted?
    ensures forall i :: 0 <= i < |items| ==>
      && WellFormed(items[i])
      && (Combine(items, routes, cache, matches, invoke).outcome.responses[i].httpStatus == NOT_FOUND
          <==> |routes| == 0 && ItemKey(items[i]) !in cache)
  {
    var st := Resolve(items, routes, matches, ScanState(true, map[], cache)).st;
    AcceptedPassFacts(items, routes, cache, matches, invoke);
    NotFoundFromPass(items, routes, cache, st, Combine(items, routes, cache, matches, invoke).outcome.responses, invoke);
  }

  lemma CacheHitFromPass<R>(items: seq<RequestItem>, routes: seq<RouteEntry>, cache: Cache, st: ScanState,
                            responses: seq<ResponseItem<R>>, invoke: (Handler, Option<seq<Arg>>) -> Invocation<R>)
    requires PassFacts(items, routes, cache, st)
    requires |responses| == |items|
    requires forall i :: 0 <= i < |items| ==>
      && AnswerItem(items[i], HandlerFor(st.resolved, items[i]), invoke).Answered?
      && responses[i] == AnswerItem(items[i], HandlerFor(st.resolved, items[i]), invoke).response
    ensures forall i :: 0 <= i < |items| && WellFormed(items[i]) && ItemKey(items[i]) in cache ==>
      && AnswerItem(items[i], Some(cache[ItemKey(items[i])]), invoke).Answered?
      && responses[i] == AnswerItem(items[i], Some(cache[ItemKey(items[i])]), invoke).response
  {
    forall i | 0 <= i < |items| && WellFormed(items[i]) && ItemKey(items[i]) in cache
      ensures AnswerItem(items[i], Some(cache[ItemKey(items[i])]), invoke).Answered?
      ensures responses[i] == AnswerItem(items[i], Some(cache[ItemKey(items[i])]), invoke).response
    {
      var key := ItemKey(items[i]);
      assert items[i] in st.resolved;
      assert st.resolved[items[i]] == st.cache[key];
      assert st.cache[key] == cache[key];
    }
  }

  /** An accepted item whose key was already cached is answered with the
      cached handler, whatever its annotation: a hit never consults the
      table or the `@EnableCombineRequest` flag. */
  lemma CacheHitReusesHandler<R>(items: seq<RequestItem>, routes: seq<RouteEntry>, cache: Cache,
                                 matches: (string, string) -> bool, invoke: (Handler, Option<seq<Arg>>) -> Invocation<R>)
    ensures Combine(items, routes, cache, matches, invoke).outcome.Accepted? ==>
      forall i :: 0 <= i < |items| && WellFormed(items[i]) && ItemKey(items[i]) in cache ==>
        && AnswerItem(items[i], Some(cache[ItemKey(items[i])]), invoke).Answered?
        && Combine(items, routes, cache, matches, invoke).outcome.responses[i]
           == AnswerItem(items[i], Some(cache[ItemKey(items[i])]), invoke).response
  {
    if Combine(items, routes, cache, matches, invoke).outcome.Accepted? {
      var st := Resolve(items, routes, matches, ScanState(true, map[], cache)).st;
      AcceptedPassFacts(items, routes, cache, matches, invoke);
      CacheHitFromPass(items, routes, cache, st, Combine(items, routes, cache, matches, invoke).outcome.responses, invoke);
    }
  }

  /** A handler that fails to bind an item's parameters makes the whole call
      fail: `getArgs` runs outside the `try`, so its exception is never turned
      into a 400 answer. Stated for the handler the pass recorded. */
  lemma BindFailureRejectsCall<R>(items: seq<RequestItem>, routes: seq<RouteEntry>, cache: Cache,
                                  matches: (string, string) -> bool,
                                  invoke: (Handler, Option<seq<Arg>>) -> Invocation<R>, i: nat)
    requires AllAdmissible(items, routes, cache, matches)
    requires i < |items|
    requires var r := Resolve(items, routes, matches, ScanState(true, map[], cache));
      && r.Continue?
      && items[i] in r.st.resolved
      && BindSignature(r.st.resolved[items[i]].signature, items[i].param).BindError?
    ensures Combine(items, routes, cache, matches, invoke).outcome.Rejected?
    ensures Combine(items, routes, cache, matches, invoke).outcome.failure.Binder?
         || Combine(items, routes, cache, matches, invoke).outcome.failure == HandlerException
  {
    CombineAccepted(items, routes, cache, matches, invoke);
    CombineGate(items, routes, cache, matches, invoke);
  }

  /** The same for an item whose key was already cached: if the cached
      handler fails to bind the item's parameters, the call is never
      accepted, whatever the table holds. */
  lemma CachedBindFailureRejectsCall<R>(items: seq<RequestItem>, routes: seq<RouteEntry>, cache: Cache,
                                        matches: (string, string) -> bool,
                                        invoke: (Handler, Option<seq<Arg>>) -> Invocation<R>, i: nat)
    requires i < |items| && WellFormed(items[i]) && ItemKey(items[i]) in cache
    requires BindSignature(cache[ItemKey(items[i])].signature, items[i].param).BindError?
    ensures Combine(items, routes, cache, matches, invoke).outcome.Rejected?
  {
    CacheHitReusesHandler(items, routes, cache, matches, invoke);
  }

  /** A pass whose items all hit the cache reads nothing from the route table. */
  lemma {:induction false} ResolveFromCacheOnly(items: seq<RequestItem>, routes: seq<RouteEntry>,
                                                other: seq<RouteEntry>, matches: (string, string) -> bool, st: ScanState)
    requires forall i :: 0 <= i < |items| ==> WellFormed(items[i]) && ItemKey(items[i]) in st.cache
    ensures Resolve(items, routes, matches, st) == Resolve(items, other, matches, st)
    decreases |items|
  {
    if items != [] {
      var next := ResolveItem(items[0], routes, matches, st).st;
      assert ResolveItem(items[0], other, matches, st) == Continue(next);
      assert next.cache == st.cache;
      ResolveCons(items, routes, matches, st);
      ResolveCons(items, other, matches, st);
      assert forall i :: 1 <= i < |items| ==> items[i] == items[1..][i - 1];
      ResolveFromCacheOnly(items[1..], routes, other, matches, next);
    }
  }

  /** After a pass that keeps the flag on a non-empty table, every item's key
      is cached. */
  lemma KeysCachedAfterGate<R>(items: seq<RequestItem>, routes: seq<RouteEntry>, cache: Cache,
                               matches: (string, string) -> bool,
                               invoke: (Handler, Option<seq<Arg>>) -> Invocation<R>)
    requires AllAdmissible(items, routes, cache, matches)
    requires |routes| > 0
    ensures forall i :: 0 <= i < |items| ==>
      ItemKey(items[i]) in Combine(items, routes, cache, matches, invoke).cache
  {
    var st0 := ScanState(true, map[], cache);
    ResolutionGate(items, routes, cache, matches);
    ResolveMembership(items, routes, matches, st0);
    var st := Resolve(items, routes, matches, st0).st;
    assert Combine(items, routes, cache, matches, invoke).cache == st.cache;
    forall i | 0 <= i < |items|
      ensures ItemKey(items[i]) in st.cache
    {
      assert items[i] in st.resolved;
    }
  }

  /** The endpoint sees the route table only through the resolution pass. */
  lemma CombineThroughPass<R>(items: seq<RequestItem>, routes: seq<RouteEntry>, other: seq<RouteEntry>,
                              cache: Cache, matches: (string, string) -> bool,
                              invoke: (Handler, Option<seq<Arg>>) -> Invocation<R>)
    requires Resolve(items, routes, matches, ScanState(true, map[], cache))
          == Resolve(items, other, matches, ScanState(true, map[], cache))
    ensures Combine(items, routes, cache, matches, invoke) == Combine(items, other, cache, matches, invoke)
  {
  }

  /** After a call that passes the gate on a non-empty table, every item's key
      is cached, so the same items a second time are served from the cache:
      the outcome no longer depends on the route table, so no scan happens. */
  lemma RepeatIsServedFromCache<R>(items: seq<RequestItem>, routes: seq<RouteEntry>, other: seq<RouteEntry>,
                                   cache: Cache, matches: (string, string) -> bool,
                                   invoke: (Handler, Option<seq<Arg>>) -> Invocation<R>)
    requires AllAdmissible(items, routes, cache, matches)
    requires |routes| > 0
    ensures forall i :: 0 <= i < |items| ==>
      ItemKey(items[i]) in Combine(items, routes, cache, matches, invoke).cache
    ensures var after := Combine(items, routes, cache, matches, invoke).cache;
      Combine(items, routes, after, matches, invoke) == Combine(items, other, after, matches, invoke)
  {
    KeysCachedAfterGate(items, routes, cache, matches, invoke);
    var after := Combine(items, routes, cache, matches, invoke).cache;
    ResolveFromCacheOnly(items, routes, other, matches, ScanState(true, map[], after));
    CombineThroughPass(items, routes, other, after, matches, invoke);
  }

  // ---------------------------------------------------------------------------
  // Unfolding steps for concrete calls
  // ---------------------------------------------------------------------------

  /** A one-item pass that misses the cache is the scan. */
  lemma ResolveMiss(item: RequestItem, routes: seq<RouteEntry>, matches: (string, string) -> bool, st: ScanState)
    requires WellFormed(item) && ItemKey(item) !in st.cache
    ensures Resolve([item], routes, matches, st)
         == Continue(Scan(routes, item, ItemUrl(item), ItemMethod(item), ItemKey(item), matches, st))
  {
    assert [item][1..] == [];
  }

  /** A pass that hits the cache with the flag true records the cached handler. */
  lemma ResolveHit(item: RequestItem, items: seq<RequestItem>, routes: seq<RouteEntry>,
                   matches: (string, string) -> bool, st: ScanState)
    requires WellFormed(item) && ItemKey(item) in st.cache && st.valid
    ensures Resolve([item] + items, routes, matches, st)
         == Resolve(items, routes, matches, st.(resolved := st.resolved[item := st.cache[ItemKey(item)]]))
  {
    assert ([item] + items)[0] == item;
    assert ([item] + items)[1..] == items;
  }

  /** A one-item pass that stops. */
  lemma ResolveStop(item: RequestItem, routes: seq<RouteEntry>, matches: (string, string) -> bool, st: ScanState)
    requires !WellFormed(item)
    ensures Resolve([item], routes, matches, st) == Stop(FailureOf(item), st.cache)
  {
  }

  /** A pass whose first item misses the cache scans for it, then goes on. */
  lemma ResolveMissThen(item: RequestItem, items: seq<RequestItem>, routes: seq<RouteEntry>,
                        matches: (string, string) -> bool, st: ScanState)
    requires WellFormed(item) && ItemKey(item) !in st.cache
    ensures Resolve([item] + items, routes, matches, st)
         == Resolve(items, routes, matches, Scan(routes, item, ItemUrl(item), ItemMethod(item), ItemKey(item), matches, st))
  {
    assert ([item] + items)[0] == item;
    assert ([item] + items)[1..] == items;
  }

  /** Answering a one-item batch is answering that item. */
  lemma RespondOne<R>(item: RequestItem, resolved: map<RequestItem, Handler>,
                      invoke: (Handler, Option<seq<Arg>>) -> Invocation<R>)
    ensures Respond([item], resolved, invoke) ==
      match AnswerItem(item, HandlerFor(resolved, item), invoke)
      case Raised(f, inv) => Responses(Rejected(f), inv)
      case Answered(resp, inv) => Responses(Accepted([resp]), inv)
  {
    assert [item][1..] == [];
  }

  /** The response loop ends at a first item whose answer raises. */
  lemma RespondFirstRaises<R>(item: RequestItem, items: seq<RequestItem>, resolved: map<RequestItem, Handler>,
                              invoke: (Handler, Option<seq<Arg>>) -> Invocation<R>)
    requires AnswerItem(item, HandlerFor(resolved, item), invoke).Raised?
    ensures Respond([item] + items, resolved, invoke).outcome == Rejected(AnswerItem(item, HandlerFor(resolved, item), invoke).failure)
    ensures Respond([item] + items, resolved, invoke).invoked == AnswerItem(item, HandlerFor(resolved, item), invoke).invoked
  {
    assert ([item] + items)[0] == item;
  }

  /** The endpoint after a pass that ended with the flag false. */
  lemma CombineNotSupported<R>(items: seq<RequestItem>, routes: seq<RouteEntry>, cache: Cache,
                               matches: (string, string) -> bool,
                               invoke: (Handler, Option<seq<Arg>>) -> Invocation<R>, st: ScanState)
    requires Resolve(items, routes, matches, ScanState(true, map[], cache)) == Continue(st) && !st.valid
    ensures Combine(items, routes, cache, matches, invoke) == CombineResult(Rejected(NotSupported), st.cache, [])
  {
  }

  /** The endpoint after a pass that kept the flag true. */
  lemma CombineResponds<R>(items: seq<RequestItem>, routes: seq<RouteEntry>, cache: Cache,
                           matches: (string, string) -> bool,
                           invoke: (Handler, Option<seq<Arg>>) -> Invocation<R>, st: ScanState)
    requires Resolve(items, routes, matches, ScanState(true, map[], cache)) == Continue(st) && st.valid
    ensures Combine(items, routes, cache, matches, invoke)
         == CombineResult(Respond(items, st.resolved, invoke).outcome, st.cache, Respond(items, st.resolved, invoke).invoked)
  {
  }

  /** A call that passes the gate and whose first item raises is rejected
      with that item's exception. */
  lemma CombineRaisesAtFirst<R>(item: RequestItem, items: seq<RequestItem>, routes: seq<RouteEntry>, cache: Cache,
                                matches: (string, string) -> bool,
                                invoke: (Handler, Option<seq<Arg>>) -> Invocation<R>, st: ScanState)
    requires Resolve([item] + items, routes, matches, ScanState(true, map[], cache)) == Continue(st) && st.valid
    requires AnswerItem(item, HandlerFor(st.resolved, item), invoke).Raised?
    ensures Combine([item] + items, routes, cache, matches, invoke).outcome
         == Rejected(AnswerItem(item, HandlerFor(st.resolved, item), invoke).failure)
    ensures Combine([item] + items, routes, cache, matches, invoke).invoked
         == AnswerItem(item, HandlerFor(st.resolved, item), invoke).invoked
  {
    CombineResponds([item] + items, routes, cache, matches, invoke, st);
    RespondFirstRaises(item, items, st.resolved, invoke);
  }
}

=== FILE: fixtures.dfy ===
/** Concrete scenarios built from the demo handlers of `UserController`
    (`/ming`, `/fang`, `/liang`, `/qiu/{id}`), showing the binder and the
    endpoint on specific inputs. */
module Fixtures {
  import opened JavaLang
  import opened RequestItems
  import opened Binding
  import opened Routing
  import opened Dispatch

  /** `getMing()`: no parameters. */
  const Ming: Handler := Handler(1, true, Some([]))

  /** `getFang()`: no parameters. */
  const Fang: Handler := Handler(2, true, Some([]))

  /** `getLiang(@RequestParam(name="userName", defaultValue="明") String name, Integer id)`. */
  const Liang: Handler :=
    Handler(3, true, Some([Param("name", [RequestParam("userName", true, "明")]), Param("id", [])]))

  /** `getQiu(@PathVariable(name="id") Integer id, @RequestParam(name="userName", defaultValue="丘") String name)`. */
  const Qiu: Handler :=
    Handler(4, true, Some([QiuId, QiuName]))

  /** A pattern matcher good enough for literal patterns. */
  function ExactMatch(pattern: string, url: string): bool
  {
    pattern == url
  }

  /** A handler invoker whose handlers all return their own id. */
  function ReturnId(h: Handler, args: Option<seq<Arg>>): Invocation<nat>
  {
    Completed(h.id)
  }

  /** A handler invoker whose handlers all throw IllegalArgumentException. */
  function RejectArgs(h: Handler, args: Option<seq<Arg>>): Invocation<nat>
  {
    IllegalArgument
  }

  function Get(url: string, id: string, params: map<string, Value>): RequestItem
  {
    RequestItem(Some(url), Some("get"), Some(id), Some(params), None)
  }

  // ---------------------------------------------------------------------------
  // Binder
  // ---------------------------------------------------------------------------

  /** Binding a one-parameter list is binding that parameter. */
  lemma BindOne(p: Param, paramMap: Option<map<string, Value>>)
    ensures BindAll([p], paramMap) == BindParam(p, paramMap)
  {
    assert [p][..0] == [];
  }

  /** Binding a two-parameter list: the first parameter, then the second. */
  lemma BindTwo(p: Param, q: Param, paramMap: Option<map<string, Value>>)
    ensures BindAll([p, q], paramMap) ==
      match BindParam(p, paramMap)
      case Unbound(f) => Unbound(f)
      case Args(a) =>
        match BindParam(q, paramMap)
        case Unbound(f) => Unbound(f)
        case Args(b) => Args(a + b)
  {
    assert [p, q][..1] == [p];
    BindOne(p, paramMap);
  }

  const QiuId: Param := Param("id", [PathVariable("id")])
  const QiuName: Param := Param("name", [RequestParam("userName", true, "丘")])

  /** `/qiu/7` without parameters: the path variable is not extracted from
      the url, so only the defaulted user name is passed. */
  lemma QiuIdIsNotExtracted()
    ensures BindSignature(Qiu.signature, Some(map[])) == Array(Some([Text("丘")]))
  {
    var m: map<string, Value> := map[];
    assert BindParam(QiuId, Some(m)) == Args([]);
    assert BindParam(QiuName, Some(m)) == Args([Text("丘")]);
    BindTwo(QiuId, QiuName, Some(m));
    assert [] + [Text("丘")] == [Text("丘")];
    assert BindAll([QiuId, QiuName], Some(m)) == Args([Text("丘")]);
    assert Qiu.signature == Some([QiuId, QiuName]);
  }

  /** With `id` in the parameter map it is passed raw, then the default name. */
  lemma QiuIdFromParameters()
    ensures BindSignature(Qiu.signature, Some(map["id" := Int(7)])) == Array(Some([Raw(Int(7)), Text("丘")]))
  {
    var m := map["id" := Int(7)];
    assert BindParam(QiuId, Some(m)) == Args([Raw(Int(7))]);
    assert Lookup(m, "userName").None?;
    assert BindParam(QiuName, Some(m)) == Args([Text("丘")]);
    BindTwo(QiuId, QiuName, Some(m));
    assert [Raw(Int(7))] + [Text("丘")] == [Raw(Int(7)), Text("丘")];
    assert BindAll([QiuId, QiuName], Some(m)) == Args([Raw(Int(7)), Text("丘")]);
  }

  /** A supplied `@RequestParam` value is passed as its string form. */
  lemma QiuUserNameAsString()
    ensures BindSignature(Qiu.signature, Some(map["userName" := Int(5)])) == Array(Some([Text("5")]))
  {
    var m := map["userName" := Int(5)];
    assert Lookup(m, "id").None?;
    assert BindParam(QiuId, Some(m)) == Args([]);
    assert ToString(Int(5)) == "5";
    assert BindParam(QiuName, Some(m)) == Args([Text("5")]);
    BindTwo(QiuId, QiuName, Some(m));
    assert [] + [Text("5")] == [Text("5")];
    assert BindAll([QiuId, QiuName], Some(m)) == Args([Text("5")]);
  }

  /** `getLiang`: the default name, then the raw id, in declaration order. */
  lemma LiangDeclarationOrder()
    ensures BindSignature(Liang.signature, Some(map["id" := Int(3)])) == Array(Some([Text("明"), Raw(Int(3))]))
  {
    var m := map["id" := Int(3)];
    var name := Param("name", [RequestParam("userName", true, "明")]);
    var id := Param("id", []);
    assert Lookup(m, "userName").None?;
    assert BindParam(name, Some(m)) == Args([Text("明")]);
    assert BindParam(id, Some(m)) == Args([Raw(Int(3))]);
    BindTwo(name, id, Some(m));
    assert [Text("明")] + [Raw(Int(3))] == [Text("明"), Raw(Int(3))];
    assert BindAll([name, id], Some(m)) == Args([Text("明"), Raw(Int(3))]);
  }

  /** A required `@RequestParam` with no value and no default fails its assertion;
      an optional one contributes null. */
  lemma RequiredWithoutDefault()
    ensures BindSignature(Some([Param("q", [RequestParam("q", true, DEFAULT_NONE)])]), Some(map[]))
            == BindError(RequiredMissing("q"))
    ensures BindSignature(Some([Param("q", [RequestParam("q", false, DEFAULT_NONE)])]), Some(map[]))
            == Array(Some([NullArg]))
  {
    BindOne(Param("q", [RequestParam("q", true, DEFAULT_NONE)]), Some(map[]));
    BindOne(Param("q", [RequestParam("q", false, DEFAULT_NONE)]), Some(map[]));
  }

  /** Unknown parameter names give a null argument array; a null parameter map
      fails at the first parameter. */
  lemma NullCases()
    ensures BindSignature(None, Some(map[])) == Array(None)
    ensures BindSignature(Qiu.signature, None) == BindError(NullParamMap)
    ensures BindSignature(Ming.signature, None) == Array(Some([]))
  {
    BindTwo(QiuId, QiuName, None);
  }

  // ---------------------------------------------------------------------------
  // Endpoint
  // ---------------------------------------------------------------------------

  /** A `get` item is well-formed; its key is the normalised url then `GET`. */
  lemma GetFacts(url: string, id: string, params: map<string, Value>)
    ensures WellFormed(Get(url, id, params))
    ensures ItemUrl(Get(url, id, params)) == NormalizeUrl(url)
    ensures ItemMethod(Get(url, id, params)) == GET
    ensures ItemKey(Get(url, id, params)) == NormalizeUrl(url) + "GET"
  {
    Routing.UpperCaseGet();
  }

  /** A single-pattern entry serves under `ExactMatch` exactly its own url. */
  lemma ServesExact(pattern: string, methods: set<HttpMethod>, h: Handler, url: string, m: HttpMethod)
    ensures Serves(RouteEntry([pattern], methods, h), url, m, ExactMatch) <==> pattern == url && m in methods
  {
    assert [pattern][0] == pattern;
  }

  /** A batch for `/fang` on a table that lists `/ming` first is rejected:
      the non-matching `/ming` entry clears the flag before `/fang` is seen,
      and nothing is cached. */
  lemma EarlierEntryRejects()
    ensures var r := Combine([Get("fang", "1", map[])],
                             [RouteEntry(["/ming"], {GET}, Ming), RouteEntry(["/fang"], {GET}, Fang)],
                             map[], ExactMatch, ReturnId);
      r.outcome == Rejected(NotSupported) && r.cache == map[] && r.invoked == []
  {
    var item := Get("fang", "1", map[]);
    var routes := [RouteEntry(["/ming"], {GET}, Ming), RouteEntry(["/fang"], {GET}, Fang)];
    var st := ScanState(true, map[], map[]);
    GetFacts("fang", "1", map[]);
    assert ItemUrl(item) == "/fang";
    ServesExact("/ming", {GET}, Ming, "/fang", GET);
    ScanNotServing(routes, item, "/fang", GET, ItemKey(item), ExactMatch, st);
    ResolveMiss(item, routes, ExactMatch, st);
    CombineNotSupported([item], routes, map[], ExactMatch, ReturnId, st.(valid := false));
  }

  /** With `/fang` listed first the match is cached, yet the later `/ming`
      entry still clears the flag: the call is rejected with the cache grown. */
  lemma LaterEntryRejectsAfterCaching()
    ensures var r := Combine([Get("fang", "1", map[])],
                             [RouteEntry(["/fang"], {GET}, Fang), RouteEntry(["/ming"], {GET}, Ming)],
                             map[], ExactMatch, ReturnId);
      r.outcome == Rejected(NotSupported) && r.cache == map["/fangGET" := Fang] && r.invoked == []
  {
    var item := Get("fang", "1", map[]);
    var routes := [RouteEntry(["/fang"], {GET}, Fang), RouteEntry(["/ming"], {GET}, Ming)];
    var st := ScanState(true, map[], map[]);
    GetFacts("fang", "1", map[]);
    assert ItemUrl(item) == "/fang" && ItemKey(item) == "/fangGET";
    ServesExact("/fang", {GET}, Fang, "/fang", GET);
    ServesExact("/ming", {GET}, Ming, "/fang", GET);
    var mid := ScanState(true, map[item := Fang], map["/fangGET" := Fang]);
    ScanServing(routes, item, "/fang", GET, "/fangGET", ExactMatch, st);
    ScanNotServing(routes[1..], item, "/fang", GET, "/fangGET", ExactMatch, mid);
    ResolveMiss(item, routes, ExactMatch, st);
    CombineNotSupported([item], routes, map[], ExactMatch, ReturnId, mid.(valid := false));
  }

  /** A handler without `@EnableCombineRequest`: the first call is rejected
      but caches it; the same call again hits the cache and invokes it. */
  lemma UnannotatedHandlerRunsOnSecondCall()
    ensures var secret := Handler(9, false, Some([]));
      var routes := [RouteEntry(["/secret"], {GET}, secret)];
      var item := Get("secret", "7", map[]);
      var first := Combine([item], routes, map[], ExactMatch, ReturnId);
      && first.outcome == Rejected(NotSupported)
      && first.cache == map["/secretGET" := secret]
      && first.invoked == []
      && var second := Combine([item], routes, first.cache, ExactMatch, ReturnId);
         && second.outcome == Accepted([ResponseItem(Some("7"), Some("secret"), OK, Returned(9))])
         && second.invoked == [secret]
  {
    var secret := Handler(9, false, Some([]));
    var routes := [RouteEntry(["/secret"], {GET}, secret)];
    var item := Get("secret", "7", map[]);
    var st := ScanState(true, map[], map[]);
    var cache := map["/secretGET" := secret];
    GetFacts("secret", "7", map[]);
    assert ItemUrl(item) == "/secret" && ItemKey(item) == "/secretGET";
    ServesExact("/secret", {GET}, secret, "/secret", GET);
    ScanServing(routes, item, "/secret", GET, "/secretGET", ExactMatch, st);
    assert routes[1..] == [];
    ResolveMiss(item, routes, ExactMatch, st);
    CombineNotSupported([item], routes, map[], ExactMatch, ReturnId, ScanState(false, map[item := secret], cache));

    var st2 := ScanState(true, map[], cache);
    ResolveHit(item, [], routes, ExactMatch, st2);
    assert [item] + [] == [item];
    CombineResponds([item], routes, cache, ExactMatch, ReturnId, st2.(resolved := map[item := secret]));
    assert BindSignature(secret.signature, item.param) == Array(Some([])) by {
      assert BindAll([], item.param) == Args([]);
    }
    RespondOne(item, map[item := secret], ReturnId);
  }

  /** A search handler with one required parameter `q` and no default. */
  const SearchQ: Param := Param("q", [RequestParam("q", true, DEFAULT_NONE)])
  const Search: Handler := Handler(5, true, Some([SearchQ]))
  const SearchRoutes: seq<RouteEntry> := [RouteEntry(["/search"], {GET}, Search)]
  /** A search without `q`, and one with it. */
  const SearchBare: RequestItem := Get("/search", "1", map[])
  const SearchWithQ: RequestItem := Get("/search", "2", map["q" := Str("x")])

  lemma SearchKeys()
    ensures WellFormed(SearchBare) && WellFormed(SearchWithQ)
    ensures ItemUrl(SearchBare) == "/search" && ItemMethod(SearchBare) == GET
    ensures ItemKey(SearchBare) == "/searchGET" && ItemKey(SearchWithQ) == "/searchGET"
  {
    GetFacts("/search", "1", map[]);
    GetFacts("/search", "2", map["q" := Str("x")]);
  }

  lemma SearchScan()
    ensures Scan(SearchRoutes, SearchBare, "/search", GET, "/searchGET", ExactMatch, ScanState(true, map[], map[]))
         == ScanState(true, map[SearchBare := Search], map["/searchGET" := Search])
  {
    ServesExact("/search", {GET}, Search, "/search", GET);
    ScanServing(SearchRoutes, SearchBare, "/search", GET, "/searchGET", ExactMatch, ScanState(true, map[], map[]));
    assert SearchRoutes[1..] == [];
  }

  /** Both searches pass the gate: the first scans and caches, the second hits. */
  lemma SearchPass()
    ensures Resolve([SearchBare, SearchWithQ], SearchRoutes, ExactMatch, ScanState(true, map[], map[]))
         == Continue(ScanState(true, map[SearchBare := Search, SearchWithQ := Search], map["/searchGET" := Search]))
  {
    var a, b := SearchBare, SearchWithQ;
    var st1 := ScanState(true, map[a := Search], map["/searchGET" := Search]);
    SearchKeys();
    SearchScan();
    assert [a, b] == [a] + [b];
    ResolveMissThen(a, [b], SearchRoutes, ExactMatch, ScanState(true, map[], map[]));
    assert [b] + [] == [b];
    ResolveHit(b, [], SearchRoutes, ExactMatch, st1);
  }

  /** The search without `q` raises the binder's exception before invocation. */
  lemma SearchBareRaises(resolved: map<RequestItem, Handler>)
    requires SearchBare in resolved && resolved[SearchBare] == Search
    ensures AnswerItem(SearchBare, HandlerFor(resolved, SearchBare), ReturnId) == Raised(Binder(RequiredMissing("q")), [])
  {
    BindOne(SearchQ, SearchBare.param);
    assert BindSignature(Search.signature, SearchBare.param) == BindError(RequiredMissing("q"));
  }

  /** A required parameter missing from an otherwise valid call aborts the
      whole call instead of answering that item with 400. */
  lemma MissingRequiredAbortsCall()
    ensures var r := Combine([SearchBare, SearchWithQ], SearchRoutes, map[], ExactMatch, ReturnId);
      r.outcome == Rejected(Binder(RequiredMissing("q"))) && r.invoked == []
  {
    var st := ScanState(true, map[SearchBare := Search, SearchWithQ := Search], map["/searchGET" := Search]);
    SearchPass();
    SearchBareRaises(st.resolved);
    CombineRaisesAtFirst(SearchBare, [SearchWithQ], SearchRoutes, map[], ExactMatch, ReturnId, st);
    assert [SearchBare] + [SearchWithQ] == [SearchBare, SearchWithQ];
  }

  /** A handler that throws IllegalArgumentException is answered 400 with
      entity "bad request"; the response keeps the url as sent. */
  lemma IllegalArgumentIsBadRequest()
    ensures var r := Combine([Get("ming", "1", map[])], [RouteEntry(["/ming"], {GET}, Ming)],
                             map[], ExactMatch, RejectArgs);
      r.outcome == Accepted([ResponseItem(Some("1"), Some("ming"), BAD_REQUEST, Message("bad request"))])
  {
    var routes := [RouteEntry(["/ming"], {GET}, Ming)];
    var item := Get("ming", "1", map[]);
    var st := ScanState(true, map[], map[]);
    GetFacts("ming", "1", map[]);
    assert ItemUrl(item) == "/ming" && ItemKey(item) == "/mingGET";
    ServesExact("/ming", {GET}, Ming, "/ming", GET);
    ScanServing(routes, item, "/ming", GET, "/mingGET", ExactMatch, st);
    assert routes[1..] == [];
    ResolveMiss(item, routes, ExactMatch, st);
    var st1 := ScanState(true, map[item := Ming], map["/mingGET" := Ming]);
    CombineResponds([item], routes, map[], ExactMatch, RejectArgs, st1);
    assert BindSignature(Ming.signature, item.param) == Array(Some([])) by {
      assert BindAll([], item.param) == Args([]);
    }
    RespondOne(item, st1.resolved, RejectArgs);
  }

  /** A method that is no `RequestMethod` name aborts the call. */
  lemma UnknownMethodAborts()
    ensures Combine([RequestItem(Some("/ming"), Some("GOT"), None, None, None)],
                    [RouteEntry(["/ming"], {GET}, Ming)], map[], ExactMatch, ReturnId).outcome
            == Rejected(NoSuchMethod("GOT"))
  {
    var item := RequestItem(Some("/ming"), Some("GOT"), None, None, None);
    var routes := [RouteEntry(["/ming"], {GET}, Ming)];
    var st := ScanState(true, map[], map[]);
    assert ToUpperCase("GOT") == "GOT" by {
      ToUpperCaseOfFixed("GOT");
    }
    assert ValueOf("GOT") == None;
    assert FailureOf(item) == NoSuchMethod("GOT");
    ResolveStop(item, routes, ExactMatch, st);
    assert Resolve([item], routes, ExactMatch, st) == Stop(NoSuchMethod("GOT"), map[]);
  }
}

=== FILE: javalang.dfy ===
/** Java-level building blocks the dispatcher relies on: nullable references,
    the JSON values a request carries, `String.toUpperCase`, `Object.toString`
    of those values, and the 32-bit hash arithmetic of `String.hashCode`,
    `AbstractMap.hashCode` and `Objects.hash`. */
module JavaLang {

  /** A Java reference that may be null. */
  datatype Option<+T> = None | Some(value: T)

  /** A value of a deserialised JSON request body (parameter and header maps).
      `Null` is an explicit JSON null stored under a key. */
  datatype Value = Null | Bool(b: bool) | Int(i: int) | Str(s: string)

  // ---------------------------------------------------------------------------
  // String.toUpperCase
  // ---------------------------------------------------------------------------

  /** The upper-case form of one character, as `String.toUpperCase` produces it
      in a default locale other than Turkish, Azerbaijani or Lithuanian (whose
      special cases are not modelled), for ASCII letters and for every non-ASCII
      character whose upper case consists only of ASCII letters. Any other
      character is kept as it is, including those whose upper case mixes ASCII
      letters with other characters (such as U+0149 or U+01F0). */
  function UpperChar(c: char): (r: string)
    ensures 1 <= |r| <= 3
    ensures forall i :: 0 <= i < |r| ==> !('a' <= r[i] <= 'z')
  {
    if 'a' <= c <= 'z' then [(c as int - 32) as char]
    else if c == '\U{0131}' then "I"     // dotless i
    else if c == '\U{017F}' then "S"     // long s
    else if c == '\U{00DF}' then "SS"    // sharp s
    else if c == '\U{FB00}' then "FF"
    else if c == '\U{FB01}' then "FI"
    else if c == '\U{FB02}' then "FL"
    else if c == '\U{FB03}' then "FFI"
    else if c == '\U{FB04}' then "FFL"
    else if c == '\U{FB05}' || c == '\U{FB06}' then "ST"
    else [c]
  }

  /** A character that upper-casing leaves alone. */
  predicate UpperFixed(c: char) {
    UpperChar(c) == [c]
  }

  lemma UpperCharOutputFixed(c: char)
    ensures forall i :: 0 <= i < |UpperChar(c)| ==> UpperFixed(UpperChar(c)[i])
  {
  }

  function ToUpperCase(s: string): (r: string)
    ensures |r| >= |s|
    ensures forall i :: 0 <= i < |r| ==> !('a' <= r[i] <= 'z')
  {
    if s == [] then [] else UpperChar(s[0]) + ToUpperCase(s[1..])
  }

  lemma {:induction false} ToUpperCaseAppend(a: string, b: string)
    ensures ToUpperCase(a + b) == ToUpperCase(a) + ToUpperCase(b)
  {
    if a == [] {
      assert a + b == b;
    } else {
      assert (a + b)[0] == a[0];
      assert (a + b)[1..] == a[1..] + b;
      ToUpperCaseAppend(a[1..], b);
    }
  }

  lemma {:induction false} ToUpperCaseOfFixed(s: string)
    requires forall i :: 0 <= i < |s| ==> UpperFixed(s[i])
    ensures ToUpperCase(s) == s
  {
    if s != [] {
      assert UpperFixed(s[0]);
      ToUpperCaseOfFixed(s[1..]);
    }
  }

  /** Upper-casing an upper-cased string changes nothing. */
  lemma {:induction false} ToUpperCaseIdempotent(s: string)
    ensures ToUpperCase(ToUpperCase(s)) == ToUpperCase(s)
  {
    if s != [] {
      UpperCharOutputFixed(s[0]);
      ToUpperCaseOfFixed(UpperChar(s[0]));
      ToUpperCaseAppend(UpperChar(s[0]), ToUpperCase(s[1..]));
      ToUpperCaseIdempotent(s[1..]);
    }
  }

  // ---------------------------------------------------------------------------
  // Object.toString of a JSON value
  // ---------------------------------------------------------------------------

  function DigitChar(d: nat): char
    requires d < 10
  {
    (48 + d) as char
  }

  function NatToString(n: nat): (r: string)
    ensures |r| > 0
    ensures forall i :: 0 <= i < |r| ==> '0' <= r[i] <= '9'
  {
    if n < 10 then [DigitChar(n)] else NatToString(n / 10) + [DigitChar(n % 10)]
  }

  /** `toString` of a non-null value: the string itself, `true`/`false`, or
      the decimal numeral of a number. */
  function ToString(v: Value): (r: string)
    requires !v.Null?
    ensures v.Str? ==> r == v.s
    ensures v.Int? && v.i >= 0 ==> r == NatToString(v.i)
  {
    match v
    case Bool(b) => if b then "true" else "false"
    case Int(i) => if i < 0 then "-" + NatToString(-i) else NatToString(i)
    case Str(s) => s
  }

  predicate AllDigits(s: string)
  {
    forall i :: 0 <= i < |s| ==> '0' <= s[i] <= '9'
  }

  /** The number a string of decimal digits denotes (`Integer.parseInt` without sign). */
  function DecimalValue(s: string): nat
    requires AllDigits(s)
    decreases |s|
  {
    if s == [] then 0 else DecimalValue(s[..|s| - 1]) * 10 + (s[|s| - 1] as int - 48)
  }

  /** `Integer.parseInt` on an optionally signed numeral. */
  function ParseInt(s: string): Option<int>
  {
    if |s| > 1 && s[0] == '-' && AllDigits(s[1..]) then Some(0 - DecimalValue(s[1..]) as int)
    else if |s| > 0 && AllDigits(s) then Some(DecimalValue(s) as int)
    else None
  }

  /** The decimal numeral reads back as the number it was made from. */
  lemma {:induction false} NatToStringRoundTrip(n: nat)
    ensures DecimalValue(NatToString(n)) == n
    decreases n
  {
    var s := NatToString(n);
    if n >= 10 {
      NatToStringRoundTrip(n / 10);
      assert s[..|s| - 1] == NatToString(n / 10);
      assert s[|s| - 1] == DigitChar(n % 10);
    }
  }

  lemma ParseUnsigned(digits: string)
    requires |digits| > 0 && AllDigits(digits)
    ensures ParseInt(digits) == Some(DecimalValue(digits) as int)
  {
    assert digits[0] != '-';
  }

  lemma ParseNegative(digits: string)
    requires |digits| > 0 && AllDigits(digits)
    ensures ParseInt("-" + digits) == Some(0 - DecimalValue(digits) as int)
  {
    assert ("-" + digits)[1..] == digits;
  }

  /** The string form of a number parses back to that number, so a numeric
      parameter survives the trip through `toString`. */
  lemma IntToStringRoundTrip(i: int)
    ensures ParseInt(ToString(Int(i))) == Some(i)
  {
    if i < 0 {
      var n: nat := -i;
      var digits := NatToString(n);
      assert ToString(Int(i)) == "-" + digits;
      NatToStringRoundTrip(n);
      ParseNegative(digits);
    } else {
      var n: nat := i;
      var digits := NatToString(n);
      assert ToString(Int(i)) == digits;
      NatToStringRoundTrip(n);
      ParseUnsigned(digits);
    }
  }

  // ---------------------------------------------------------------------------
  // 32-bit hash arithmetic
  // ---------------------------------------------------------------------------

  const TWO_32: int := 0x1_0000_0000

  /** Java `int` wrap-around: the two's-complement 32-bit value congruent to x. */
  function Int32(x: int): (r: int)
    ensures -0x8000_0000 <= r < 0x8000_0000
    ensures (x - r) % TWO_32 == 0
  {
    var m := x % TWO_32;
    if m >= 0x8000_0000 then m - TWO_32 else m
  }

  function Xor32(a: int, b: int): (r: int)
    ensures -0x8000_0000 <= r < 0x8000_0000
  {
    var x := (a % TWO_32) as bv32;
    var y := (b % TWO_32) as bv32;
    Int32((x ^ y) as int)
  }

  /** The UTF-16 code units of one character, as a Java `String` stores it. */
  function Utf16(c: char): (r: seq<int>)
    ensures |r| == if c as int < 0x1_0000 then 1 else 2
  {
    if c as int < 0x1_0000 then [c as int]
    else [0xD800 + (c as int - 0x1_0000) / 0x400, 0xDC00 + (c as int - 0x1_0000) % 0x400]
  }

  function PolyHash(acc: int, units: seq<int>): int
    decreases |units|
  {
    if units == [] then acc else PolyHash(Int32(31 * acc + units[0]), units[1..])
  }

  function Utf16String(s: string): seq<int>
  {
    if s == [] then [] else Utf16(s[0]) + Utf16String(s[1..])
  }

  /** `String.hashCode`: s[0]*31^(n-1) + ... + s[n-1] over UTF-16 units, in `int`. */
  function StringHash(s: string): int
  {
    PolyHash(0, Utf16String(s))
  }

  /** `Objects.hashCode` of a parameter or header value. Numbers are hashed as
      `Integer.hashCode`, that is, the value itself wrapped to 32 bits. */
  function ValueHash(v: Value): int
  {
    match v
    case Null => 0
    case Bool(b) => if b then 1231 else 1237
    case Int(i) => Int32(i)
    case Str(s) => StringHash(s)
  }

  /** `AbstractMap.hashCode`: the `int` sum, over the entries, of
      key hash XOR value hash. Addition modulo 2^32 is commutative, so picking
      the entries in any fixed order gives Java's value. */
  ghost function MapHash(m: map<string, Value>): int
    decreases |m|
  {
    if m == map[] then 0
    else
      var k :| k in m;
      var rest := m - {k};
      assert |rest| < |m| by {
        assert rest.Keys == m.Keys - {k};
      }
      Int32(Xor32(StringHash(k), ValueHash(m[k])) + MapHash(rest))
  }

  /** `Objects.hash(fields...)` given the fields' own hash codes: 31-based
      polynomial starting from 1, in `int`. */
  function ObjectsHash(hashes: seq<int>): int
  {
    PolyHash(1, hashes)
  }

  function NullableStringHash(s: Option<string>): int
  {
    if s.None? then 0 else StringHash(s.value)
  }

  ghost function NullableMapHash(m: Option<map<string, Value>>): int
  {
    if m.None? then 0 else MapHash(m.value)
  }
}

=== FILE: requestitem.dfy ===
/** The request and response records of a combined call, and the structural
    `equals`/`hashCode` of `RequestItem` that make it usable as the key of the
    per-call handler map. */
module RequestItems {
  import opened JavaLang

  /** The parameter or header map of a request item. */
  type Params = map<string, Value>

  /** One logical call inside a combined request. Every field may be null in
      the deserialised body. */
  datatype RequestItem = RequestItem(
    url: Option<string>,
    httpMethod: Option<string>,
    requestId: Option<string>,
    param: Option<Params>,
    header: Option<Params>)

  /** What a response item carries as its entity: nothing (null), the
      handler's return value, or a fixed message. */
  datatype Entity<R> = NoEntity | Returned(value: R) | Message(text: string)

  /** The answer to one request item. */
  datatype ResponseItem<R> = ResponseItem(
    requestId: Option<string>,
    url: Option<string>,
    httpStatus: int,
    entity: Entity<R>)

  const OK: int := 200
  const BAD_REQUEST: int := 400
  const NOT_FOUND: int := 404

  /** The argument `equals` receives: null, a `RequestItem` object at some
      address, or an object of another class at some address. */
  datatype Reference = NullRef | ItemRef(address: nat, item: RequestItem) | OtherRef(address: nat)

  /** Addresses identify objects: two references to one address hold the same item. */
  predicate SameObjectSameItem(self: nat, item: RequestItem, o: Reference)
  {
    o.ItemRef? && o.address == self ==> o.item == item
  }

  /** `RequestItem.equals`, called on the object at `self` whose fields are `item`:
      identity first, then null and class, then the five fields pairwise. */
  predicate Equals(self: nat, item: RequestItem, o: Reference)
  {
    if o.ItemRef? && o.address == self then true
    else if !o.ItemRef? then false
    else
      var that := o.item;
      && item.url == that.url
      && item.httpMethod == that.httpMethod
      && item.requestId == that.requestId
      && item.param == that.param
      && item.header == that.header
  }

  /** `RequestItem.hashCode`: `Objects.hash(url, method, requestId, param, header)`. */
  ghost function HashCode(item: RequestItem): int
  {
    ObjectsHash([
      NullableStringHash(item.url),
      NullableStringHash(item.httpMethod),
      NullableStringHash(item.requestId),
      NullableMapHash(item.param),
      NullableMapHash(item.header)])
  }

  /** An item equals itself. */
  lemma EqualsReflexive(self: nat, item: RequestItem)
    ensures Equals(self, item, ItemRef(self, item))
  {
  }

  /** An item never equals null or an object of another class. */
  lemma EqualsRejectsNullAndOtherClasses(self: nat, item: RequestItem, other: nat)
    ensures !Equals(self, item, NullRef)
    ensures !Equals(self, item, OtherRef(other))
  {
  }

  /** Two items are equal exactly when their five fields are pairwise equal,
      that is, when they are the same value. */
  lemma EqualsIffSameFields(self: nat, item: RequestItem, o: Reference)
    requires SameObjectSameItem(self, item, o)
    ensures Equals(self, item, o) <==> o.ItemRef? && o.item == item
  {
  }

  /** Hence equality is symmetric. */
  lemma EqualsSymmetric(a: nat, x: RequestItem, b: nat, y: RequestItem)
    requires a == b ==> x == y
    ensures Equals(a, x, ItemRef(b, y)) <==> Equals(b, y, ItemRef(a, x))
  {
  }

  /** Equal items hash equally, so a hash map keyed by items identifies
      equal items with a single entry, exactly as a Dafny map keyed by the
      item value does. */
  lemma EqualItemsHashEqually(a: nat, x: RequestItem, b: nat, y: RequestItem)
    requires a == b ==> x == y
    requires Equals(a, x, ItemRef(b, y))
    ensures HashCode(x) == HashCode(y)
  {
  }
}

=== FILE: routing.dfy ===
/** Route resolution for one request item: the HTTP method names, the cache
    key `url + METHOD`, the route table as a sequence of entries, and the scan
    over that table on a cache miss. */
module Routing {
  import opened JavaLang
  import opened RequestItems
  import opened Binding

  /** Spring's `RequestMethod` enumeration. */
  datatype HttpMethod = GET | HEAD | POST | PUT | PATCH | DELETE | OPTIONS | TRACE

  function Name(m: HttpMethod): string
  {
    match m
    case GET => "GET"
    case HEAD => "HEAD"
    case POST => "POST"
    case PUT => "PUT"
    case PATCH => "PATCH"
    case DELETE => "DELETE"
    case OPTIONS => "OPTIONS"
    case TRACE => "TRACE"
  }

  const AllMethods: seq<HttpMethod> := [GET, HEAD, POST, PUT, PATCH, DELETE, OPTIONS, TRACE]

  /** `RequestMethod.valueOf`: the constant with exactly this name, or None
      where Java throws `IllegalArgumentException`. */
  function ValueOf(s: string): (r: Option<HttpMethod>)
    ensures r.Some? ==> Name(r.value) == s
    ensures r.None? ==> forall m: HttpMethod :: Name(m) != s
  {
    if s == "GET" then Some(GET)
    else if s == "HEAD" then Some(HEAD)
    else if s == "POST" then Some(POST)
    else if s == "PUT" then Some(PUT)
    else if s == "PATCH" then Some(PATCH)
    else if s == "DELETE" then Some(DELETE)
    else if s == "OPTIONS" then Some(OPTIONS)
    else if s == "TRACE" then Some(TRACE)
    else None
  }

  // ---------------------------------------------------------------------------
  // Cache key
  // ---------------------------------------------------------------------------

  predicate StartsWithSlash(u: string)
  {
    |u| > 0 && u[0] == '/'
  }

  /** The url with a leading `/` added when it has none. */
  function NormalizeUrl(u: string): (r: string)
    ensures StartsWithSlash(r)
    ensures |r| == if StartsWithSlash(u) then |u| else |u| + 1
    ensures r[|r| - |u|..] == u
  {
    if StartsWithSlash(u) then u else "/" + u
  }

  /** Normalising a normalised url changes nothing. */
  lemma NormalizeUrlIdempotent(u: string)
    ensures NormalizeUrl(NormalizeUrl(u)) == NormalizeUrl(u)
  {
  }

  /** The cache key of a raw url and method string: normalised url followed by
      the upper-cased method. */
  function RouteKey(url: string, verb: string): (k: string)
    ensures StartsWithSlash(k)
  {
    NormalizeUrl(url) + ToUpperCase(verb)
  }

  /** Normalising the url and method first does not change the key. */
  lemma RouteKeyCanonical(url: string, verb: string)
    ensures RouteKey(NormalizeUrl(url), ToUpperCase(verb)) == RouteKey(url, verb)
  {
    NormalizeUrlIdempotent(url);
    ToUpperCaseIdempotent(verb);
  }

  lemma UpperCaseGet()
    ensures ToUpperCase("get") == "GET"
    ensures ToUpperCase("GET") == "GET"
  {
    assert ToUpperCase("t") == "T" by {
      assert UpperChar('t') == "T";
      assert "t"[1..] == [];
    }
    assert ToUpperCase("et") == "ET" by {
      assert UpperChar('e') == "E";
      assert "et"[1..] == "t";
    }
    assert UpperChar('g') == "G";
    assert "get"[1..] == "et";
    ToUpperCaseOfFixed("GET");
  }

  /** (`a`, `get`) and (`/a`, `GET`) share the key `/aGET`. */
  lemma RouteKeyExample()
    ensures RouteKey("a", "get") == RouteKey("/a", "GET") == "/aGET"
  {
    UpperCaseGet();
    assert NormalizeUrl("a") == "/a";
    assert NormalizeUrl("/a") == "/a";
  }

  predicate IsSuffix(a: string, b: string)
  {
    |a| <= |b| && b[|b| - |a|..] == a
  }

  /** The inverse of `url + Name(m)`: the method whose name ends the key and
      the url before it, trying the methods in declaration order. */
  function SplitKey(k: string): (r: Option<(string, HttpMethod)>)
    ensures r.Some? ==> k == r.value.0 + Name(r.value.1)
  {
    SplitKeyFrom(k, AllMethods)
  }

  function SplitKeyFrom(k: string, candidates: seq<HttpMethod>): (r: Option<(string, HttpMethod)>)
    ensures r.Some? ==> k == r.value.0 + Name(r.value.1) && r.value.1 in candidates
    ensures r.None? ==> forall i :: 0 <= i < |candidates| ==> !IsSuffix(Name(candidates[i]), k)
  {
    if candidates == [] then None
    else
      var name := Name(candidates[0]);
      if IsSuffix(name, k) then Some((k[..|k| - |name|], candidates[0]))
      else SplitKeyFrom(k, candidates[1..])
  }

  /** No method name is a proper suffix of another. */
  lemma NamesNotSuffixes(m: HttpMethod, n: HttpMethod)
    requires m != n
    ensures !IsSuffix(Name(m), Name(n))
  {
    match n
    case GET =>
    case HEAD =>
    case POST =>
    case PUT =>
    case PATCH =>
    case DELETE =>
    case OPTIONS =>
    case TRACE =>
  }

  /** Two suffixes of one string: the shorter is a suffix of the longer. */
  lemma SuffixesNest(a: string, b: string, k: string)
    requires IsSuffix(a, k) && IsSuffix(b, k) && |a| <= |b|
    ensures IsSuffix(a, b)
  {
    assert b[|b| - |a|..] == k[|k| - |a|..];
  }

  /** The only method name that ends `u + Name(m)` is `Name(m)`. */
  lemma OnlyMethodEndsKey(u: string, m: HttpMethod, n: HttpMethod)
    requires n != m
    ensures IsSuffix(Name(m), u + Name(m))
    ensures !IsSuffix(Name(n), u + Name(m))
  {
    var k := u + Name(m);
    assert k[|k| - |Name(m)|..] == Name(m);
    if IsSuffix(Name(n), k) {
      if |Name(n)| <= |Name(m)| {
        SuffixesNest(Name(n), Name(m), k);
        NamesNotSuffixes(n, m);
      } else {
        SuffixesNest(Name(m), Name(n), k);
        NamesNotSuffixes(m, n);
      }
    }
  }

  /** The split finds a method when its name is the only candidate name
      ending the key. */
  lemma {:induction false} SplitKeyFromFinds(k: string, candidates: seq<HttpMethod>, m: HttpMethod)
    requires m in candidates && IsSuffix(Name(m), k)
    requires forall n :: n in candidates && n != m ==> !IsSuffix(Name(n), k)
    ensures SplitKeyFrom(k, candidates) == Some((k[..|k| - |Name(m)|], m))
    decreases |candidates|
  {
    if candidates[0] != m {
      assert m in candidates[1..];
      SplitKeyFromFinds(k, candidates[1..], m);
    }
  }

  /** Splitting a key recovers the url and method it was built from. */
  lemma SplitKeyRoundTrip(u: string, m: HttpMethod)
    ensures SplitKey(u + Name(m)) == Some((u, m))
  {
    var k := u + Name(m);
    forall n | n in AllMethods && n != m
      ensures !IsSuffix(Name(n), k)
    {
      OnlyMethodEndsKey(u, m, n);
    }
    assert IsSuffix(Name(m), k) by {
      assert k[|k| - |Name(m)|..] == Name(m);
    }
    assert m in AllMethods;
    SplitKeyFromFinds(k, AllMethods, m);
    assert k[..|k| - |Name(m)|] == u;
  }

  /** When the upper-cased method names a `RequestMethod`, the key of a url
      and method splits back into the normalised url and that method. */
  lemma RouteKeySplits(url: string, verb: string)
    requires ValueOf(ToUpperCase(verb)).Some?
    ensures SplitKey(RouteKey(url, verb)) == Some((NormalizeUrl(url), ValueOf(ToUpperCase(verb)).value))
  {
    SplitKeyRoundTrip(NormalizeUrl(url), ValueOf(ToUpperCase(verb)).value);
  }

  /** Keys are unambiguous: a key determines its url and method. */
  lemma KeyInjective(u1: string, m1: HttpMethod, u2: string, m2: HttpMethod)
    requires u1 + Name(m1) == u2 + Name(m2)
    ensures u1 == u2 && m1 == m2
  {
    SplitKeyRoundTrip(u1, m1);
    SplitKeyRoundTrip(u2, m2);
  }

  // ---------------------------------------------------------------------------
  // Route table and scan
  // ---------------------------------------------------------------------------

  /** One registered mapping: its url patterns, the methods it accepts, and
      the handler method behind it. */
  datatype RouteEntry = RouteEntry(patterns: seq<string>, methods: set<HttpMethod>, handler: Handler)

  /** The process-wide route cache, from key to handler. */
  type Cache = map<string, Handler>

  /** Whether an entry serves a normalised url and method: some pattern
      matches the url and the method is in the entry's method set. */
  predicate Serves(e: RouteEntry, url: string, m: HttpMethod, matches: (string, string) -> bool)
  {
    (exists i :: 0 <= i < |e.patterns| && matches(e.patterns[i], url)) && m in e.methods
  }

  /** Whether every entry of the table serves the url and method and is
      enabled for combined requests: the only way a scan keeps the batch valid. */
  predicate AllServe(routes: seq<RouteEntry>, url: string, m: HttpMethod, matches: (string, string) -> bool)
  {
    forall j :: 0 <= j < |routes| ==> Serves(routes[j], url, m, matches) && routes[j].handler.combinable
  }

  /** The state the resolution pass threads through the items: the batch
      validity flag, the per-call handler map and the route cache. */
  datatype ScanState = ScanState(valid: bool, resolved: map<RequestItem, Handler>, cache: Cache)

  /** The scan on a cache miss for `item`, whose normalised url is `url`,
      method `m` and key `key`. Once the flag is false an entry is skipped;
      an entry that does not serve clears it; a serving entry is recorded in
      both maps and clears the flag if its handler is not enabled. */
  function Scan(routes: seq<RouteEntry>, item: RequestItem, url: string, m: HttpMethod, key: string,
                matches: (string, string) -> bool, st: ScanState): (r: ScanState)
    ensures !st.valid ==> r == st
    ensures r.valid <==> st.valid && AllServe(routes, url, m, matches)
    ensures key in r.cache <==> key in st.cache || (st.valid && |routes| > 0 && Serves(routes[0], url, m, matches))
    ensures || (r.resolved == st.resolved && r.cache == st.cache)
            || (key in r.cache && r.resolved == st.resolved[item := r.cache[key]] && r.cache == st.cache[key := r.cache[key]])
    ensures r.valid && st.valid && |routes| > 0 ==>
      && key in r.cache
      && r.cache[key] == routes[|routes| - 1].handler
      && r.resolved == st.resolved[item := r.cache[key]]
    decreases |routes|
  {
    if routes == [] then st
    else
      var e := routes[0];
      var next :=
        if !st.valid then st
        else if Serves(e, url, m, matches) then
          ScanState(st.valid && e.handler.combinable,
                    st.resolved[item := e.handler],
                    st.cache[key := e.handler])
        else st.(valid := false);
      assert forall j :: 1 <= j < |routes| ==> routes[j] == routes[1..][j - 1];
      Scan(routes[1..], item, url, m, key, matches, next)
  }

  /** What the scan caches under the key is what was cached before, or the
      handler of an entry that serves the url and method. */
  lemma {:induction false} ScanCachesServingHandler(routes: seq<RouteEntry>, item: RequestItem, url: string,
                                                    m: HttpMethod, key: string,
                                                    matches: (string, string) -> bool, st: ScanState)
    requires key in Scan(routes, item, url, m, key, matches, st).cache
    ensures var r := Scan(routes, item, url, m, key, matches, st);
      || (key in st.cache && r.cache[key] == st.cache[key])
      || (exists j :: 0 <= j < |routes| && Serves(routes[j], url, m, matches) && r.cache[key] == routes[j].handler)
    decreases |routes|
  {
    if routes != [] {
      var e := routes[0];
      var next :=
        if !st.valid then st
        else if Serves(e, url, m, matches) then
          ScanState(st.valid && e.handler.combinable, st.resolved[item := e.handler], st.cache[key := e.handler])
        else st.(valid := false);
      var r := Scan(routes, item, url, m, key, matches, st);
      assert r == Scan(routes[1..], item, url, m, key, matches, next);
      ScanCachesServingHandler(routes[1..], item, url, m, key, matches, next);
      if key in next.cache && r.cache[key] == next.cache[key] {
        if !(key in st.cache && next.cache[key] == st.cache[key]) {
          assert Serves(routes[0], url, m, matches) && r.cache[key] == routes[0].handler;
        }
      } else {
        var j :| 0 <= j < |routes[1..]| && Serves(routes[1..][j], url, m, matches) && r.cache[key] == routes[1..][j].handler;
        assert routes[j + 1] == routes[1..][j];
      }
    }
  }

  /** The scan at an entry that serves: record it, then scan the rest. */
  lemma ScanServing(routes: seq<RouteEntry>, item: RequestItem, url: string, m: HttpMethod, key: string,
                    matches: (string, string) -> bool, st: ScanState)
    requires routes != [] && st.valid && Serves(routes[0], url, m, matches)
    ensures Scan(routes, item, url, m, key, matches, st)
         == Scan(routes[1..], item, url, m, key, matches,
                 ScanState(routes[0].handler.combinable, st.resolved[item := routes[0].handler],
                           st.cache[key := routes[0].handler]))
  {
  }

  /** The scan at an entry that does not serve: the flag is cleared and
      nothing else changes. */
  lemma ScanNotServing(routes: seq<RouteEntry>, item: RequestItem, url: string, m: HttpMethod, key: string,
                       matches: (string, string) -> bool, st: ScanState)
    requires routes != [] && st.valid && !Serves(routes[0], url, m, matches)
    ensures Scan(routes, item, url, m, key, matches, st) == st.(valid := false)
  {
  }

  /** An entry the scan passes with the flag still true: it serves the url
      and method and its handler is enabled. */
  predicate Passes(e: RouteEntry, url: string, m: HttpMethod, matches: (string, string) -> bool)
  {
    Serves(e, url, m, matches) && e.handler.combinable
  }

  /** The position of the first entry the scan does not pass, or the length
      of the table when it passes them all. */
  function FirstStop(routes: seq<RouteEntry>, url: string, m: HttpMethod, matches: (string, string) -> bool): (j: nat)
    ensures j <= |routes|
    decreases |routes|
  {
    if routes == [] || !Passes(routes[0], url, m, matches) then 0
    else 1 + FirstStop(routes[1..], url, m, matches)
  }

  /** `FirstStop` points at the first entry that does not serve or is not
      enabled; it is the length exactly when every entry serves and is enabled. */
  lemma {:induction false} FirstStopIsFirst(routes: seq<RouteEntry>, url: string, m: HttpMethod,
                                            matches: (string, string) -> bool)
    ensures forall i :: 0 <= i < FirstStop(routes, url, m, matches) ==> Passes(routes[i], url, m, matches)
    ensures FirstStop(routes, url, m, matches) < |routes| ==> !Passes(routes[FirstStop(routes, url, m, matches)], url, m, matches)
    ensures FirstStop(routes, url, m, matches) == |routes| <==> AllServe(routes, url, m, matches)
    decreases |routes|
  {
    if routes != [] && Passes(routes[0], url, m, matches) {
      var tail := routes[1..];
      FirstStopIsFirst(tail, url, m, matches);
      var j := FirstStop(routes, url, m, matches);
      assert j == 1 + FirstStop(tail, url, m, matches);
      forall i | 0 <= i < j
        ensures Passes(routes[i], url, m, matches)
      {
        if i > 0 {
          assert routes[i] == tail[i - 1];
        }
      }
      if j < |routes| {
        assert routes[j] == tail[j - 1];
      }
    }
  }

  /** The handler a scan from a true flag leaves under the key: the entry it
      stopped at when that entry serves (it is written, then the flag clears),
      otherwise the last entry it passed; none when it stopped at the first
      entry without writing. Every entry after the stop is skipped. */
  function ScanLeaves(routes: seq<RouteEntry>, url: string, m: HttpMethod, matches: (string, string) -> bool): Option<Handler>
  {
    var j := FirstStop(routes, url, m, matches);
    if j < |routes| && Serves(routes[j], url, m, matches) then Some(routes[j].handler)
    else if j > 0 then Some(routes[j - 1].handler)
    else None
  }

  /** `ScanLeaves` at an entry the scan does not pass. */
  lemma ScanLeavesAtStop(routes: seq<RouteEntry>, url: string, m: HttpMethod, matches: (string, string) -> bool)
    requires routes != [] && !Passes(routes[0], url, m, matches)
    ensures ScanLeaves(routes, url, m, matches)
         == if Serves(routes[0], url, m, matches) then Some(routes[0].handler) else None
  {
  }

  /** `ScanLeaves` past an entry the scan passes: the rest of the table
      decides, and the passed entry is left when the rest writes nothing. */
  lemma ScanLeavesPast(routes: seq<RouteEntry>, url: string, m: HttpMethod, matches: (string, string) -> bool)
    requires routes != [] && Passes(routes[0], url, m, matches)
    ensures ScanLeaves(routes, url, m, matches)
         == match ScanLeaves(routes[1..], url, m, matches)
            case None => Some(routes[0].handler)
            case Some(h) => Some(h)
  {
    var tail := routes[1..];
    var j' := FirstStop(tail, url, m, matches);
    assert FirstStop(routes, url, m, matches) == j' + 1;
    if j' < |tail| {
      assert routes[j' + 1] == tail[j'];
    }
    if j' > 0 {
      assert routes[j'] == tail[j' - 1];
    }
  }

  /** The scan at the first entry it does not pass: a serving entry is
      written before the flag clears, and every later entry is skipped. */
  lemma ScanStopsAt(routes: seq<RouteEntry>, item: RequestItem, url: string, m: HttpMethod, key: string,
                    matches: (string, string) -> bool, st: ScanState)
    requires routes != [] && st.valid && !Passes(routes[0], url, m, matches)
    ensures Scan(routes, item, url, m, key, matches, st)
         == if Serves(routes[0], url, m, matches)
            then ScanState(false, st.resolved[item := routes[0].handler], st.cache[key := routes[0].handler])
            else st.(valid := false)
  {
  }

  /** A map after writing an optional value under a key. */
  function Write<K, V>(m: map<K, V>, k: K, v: Option<V>): map<K, V>
  {
    match v
    case None => m
    case Some(x) => m[k := x]
  }

  /** `ScanLeavesHandler` when the first entry already stops the scan. */
  lemma ScanLeavesHandlerAtStop(routes: seq<RouteEntry>, item: RequestItem, url: string,
                                m: HttpMethod, key: string,
                                matches: (string, string) -> bool, st: ScanState)
    requires routes != [] && st.valid && !Passes(routes[0], url, m, matches)
    ensures Scan(routes, item, url, m, key, matches, st).cache == Write(st.cache, key, ScanLeaves(routes, url, m, matches))
    ensures Scan(routes, item, url, m, key, matches, st).resolved == Write(st.resolved, item, ScanLeaves(routes, url, m, matches))
  {
    ScanStopsAt(routes, item, url, m, key, matches, st);
    ScanLeavesAtStop(routes, url, m, matches);
  }

  /** A scan from a true flag writes exactly the handler `ScanLeaves` names,
      under the key and for the item, and changes nothing else. */
  lemma {:induction false} ScanLeavesHandler(routes: seq<RouteEntry>, item: RequestItem, url: string,
                                             m: HttpMethod, key: string,
                                             matches: (string, string) -> bool, st: ScanState)
    requires st.valid
    ensures Scan(routes, item, url, m, key, matches, st).cache == Write(st.cache, key, ScanLeaves(routes, url, m, matches))
    ensures Scan(routes, item, url, m, key, matches, st).resolved == Write(st.resolved, item, ScanLeaves(routes, url, m, matches))
    decreases |routes|
  {
    if routes != [] {
      var e, tail := routes[0], routes[1..];
      if !Passes(e, url, m, matches) {
        ScanLeavesHandlerAtStop(routes, item, url, m, key, matches, st);
      } else {
        var next := ScanState(true, st.resolved[item := e.handler], st.cache[key := e.handler]);
        ScanServing(routes, item, url, m, key, matches, st);
        ScanLeavesHandler(tail, item, url, m, key, matches, next);
        ScanLeavesPast(routes, url, m, matches);
        if ScanLeaves(tail, url, m, matches).Some? {
          var h := ScanLeaves(tail, url, m, matches).value;
          assert next.cache[key := h] == st.cache[key := h];
          assert next.resolved[item := h] == st.resolved[item := h];
        }
      }
    }
  }
}
